=== FILE: README.md ===
# Running tracker: live session, finishing, achievements and route display

A Dafny model of the core of a mobile running tracker. The model covers five parts.

- **The live-tracking store** (`useCurrentActivity`). It holds one session record: activity flag, start time, elapsed seconds, paused milliseconds, pending pause, distance, speed, calories, recorded samples, and the location-subscription, timer and simulation-interval handles. It also defines the actions start, pause, resume, stop, timer tick, location sample, start simulation, simulation tick and stop simulation.
- **The synthetic GPS feed.** It linearly interpolates a fixed six-waypoint loop, 11 points per segment, and replays it.
- **The tracking screen.** This covers `formatTime`, the play/pause and simulation buttons, and finishing an activity. Finishing stops the activity or the simulation, keeps only accurate samples and builds the activity record.
- **The achievement scan** (`checkActivityForBadges`). It runs over the fixed rule table. The endurance rule reads back the `HH:MM:SS` text.
- **The activity-details screen and the route map.** This covers which activity is shown, which badges belong to it, whether its route can be drawn, and the map region framing the route.

Every action is a pure function on an immutable `Tracking.Session`. The wall clock is an explicit `now` (in milliseconds). Each answer from the positioning service is a parameter: the permission decision, each fix attempt, and whether a subscription started. The haversine distance is a parameter `dist` of type `Geo.DistanceFn`, i.e. any function that is never negative. Coordinates, distances and speeds are `real`.

The model follows the code as written, including its JavaScript truthiness and the behaviours listed below. A timestamp of `0` counts as "not set": in `updateTimer`, in `resumeActivity`'s pause accounting, and in `startSimulation`'s `startTime || now`. A reported speed or accuracy of `0` counts as absent.

Behaviours of the code as written:

- **Simulation size.** The code emits steps 0..10 of each segment, so 11 points per segment. It replays the seed point plus the six-waypoint loop, which gives 66 points, and it stops after recording 65 of them.
- **No state guards.** `pause`, `resume` and `start` check no state.
- **Start replaces the samples.** A successful start replaces the samples with the initial fix. It does not reset distance, speed, calories or elapsed time.
- **Stop keeps the pause bookkeeping.** `stop` clears everything except `pausedTime` and `lastPauseTime`. A simulation started after a stop restarts the clock at `now` but keeps the old paused time. Every timer tick until the old paused time has passed therefore shows a negative elapsed time, and `formatTime` prints a negative clock.
- **Unchecked callback after simulation.** The subscription that `stopSimulation` re-creates records samples even while paused.
- **Removed handle stays stored.** `startSimulation` removes the live subscription but leaves its handle in the store. A later resume therefore does not subscribe again.
- **Finishing a simulation does not reset.** Finishing while simulating only stops the simulation. The session keeps its samples and statistics.

## Model

| member | source | states |
|---|---|---|
| Geo.FromFix | hooks/useCurrentActivity.ts:103-110 | a sample built from a fix has the fix's position and timestamp; null or zero readings become absent, so truthiness of speed and accuracy is that of the fix |
| Simulation.FullPath | hooks/useCurrentActivity.ts:166-172 | the replayed path is the last recorded position (or the first waypoint when nothing is recorded) followed by the six waypoints |
| Simulation.InterpolateAt | hooks/useCurrentActivity.ts:176-191 | point `step` of segment `i` sits at index `11*i + step` and is the linear interpolation between `full[i]` and `full[i+1]` at `step/10`, stamped `now + (10*i + step)*1000`, accuracy 10, speed 3 |
| Simulation.SegmentEndpoints | hooks/useCurrentActivity.ts:181-185 | segment `i` starts exactly at `full[i]` and ends exactly at `full[i+1]` |
| Simulation.TimestampAt | hooks/useCurrentActivity.ts:186 | the stamp at index `k` of the path is `now + (k - k/11)*1000` |
| Simulation.TimestampsNondecreasing | hooks/useCurrentActivity.ts:186 | stamps never decrease along the interpolated path |
| Simulation.BoundaryStampsShared | hooks/useCurrentActivity.ts:186 | the last point of a segment and the first point of the next carry the same stamp |
| Simulation.SimulatedPathShape | hooks/useCurrentActivity.ts:169-191 | the simulated path has 66 points; it starts at the seed position and ends back at the loop's first waypoint |
| Simulation.Interpolate | hooks/useCurrentActivity.ts:175-191 | a path over `n >= 1` waypoints has `11*(n-1)` points, one segment per consecutive pair |
| Simulation.BuildInterpolatedPath | hooks/useCurrentActivity.ts:175-191 | the nested step/segment loops produce exactly the segment-by-segment interpolation |
| Tracking.UpdateTimer | hooks/useCurrentActivity.ts:376-387 | elapsed seconds are the floor of `(now - startTime - pausedTime)/1000` (bracketed between consecutive multiples of 1000), 0 when no start time is set; no other field changes |
| Tracking.TimerTick | hooks/useCurrentActivity.ts:120-125 | the timer callback changes only the elapsed time; it does nothing while paused, and while active gives the floor of `(now - startTime - pausedTime)/1000` (0 with no start time) |
| Tracking.UpdateStats | hooks/useCurrentActivity.ts:389-419 | the sample is appended; distance grows by `dist(last, new)` only when a sample existed, so it never decreases; speed is 3.6 times a truthy reported speed, else 0; calories are `floor(60*distance)`; nothing else changes |
| Tracking.LiveSample | hooks/useCurrentActivity.ts:102-116 | a fix is recorded only through a live subscription, and a checking subscription drops it while not active; removed or missing subscriptions deliver nothing |
| Tracking.FirstFix | hooks/useCurrentActivity.ts:72-94 | the initial fix exists exactly when one of the first three attempts succeeds, and is the outcome of one of them |
| Tracking.AcquireInitialFix | hooks/useCurrentActivity.ts:77-90 | the retry loop makes at most three attempts, stops at the first success, and every attempt before it failed |
| Tracking.Start | hooks/useCurrentActivity.ts:66-143 | refused permission, no fix in three attempts or a failed subscription each give their own error (`PermissionDenied`, `InitialFixUnavailable`, `SubscriptionFailed`); success seeds the samples with the fix, sets start time, zero pause time, no pending pause, active, timer and checking subscription, and changes nothing else (distance, speed, calories and elapsed time are kept) |
| Tracking.Pause | hooks/useCurrentActivity.ts:272-284 | with no guard, pausing clears the active flag and the timer and records the pause time |
| Tracking.Resume | hooks/useCurrentActivity.ts:286-342 | with no guard, resuming adds the pending pause (if set) to the paused time, clears it, sets active and timer, and subscribes only when no subscription handle is stored |
| Tracking.Stop | hooks/useCurrentActivity.ts:344-374 | stopping returns the pre-call samples and clears every session field and handle except `pausedTime` and `lastPauseTime`, which are kept |
| Tracking.StartSimulation | hooks/useCurrentActivity.ts:145-218 | a no-op while simulating; otherwise keeps the samples (or seeds one synthetic point when there are none), keeps a set start time, removes the live subscription but keeps its handle stored (so a later resume does not subscribe again), and starts replaying the 66-point path; nothing else changes (distance, speed, calories, elapsed time, paused time and the pending pause are kept) |
| Tracking.StopSimulation | hooks/useCurrentActivity.ts:220-270 | returns the current samples and keeps samples, distance, elapsed time and calories; the replay no longer runs; after a successful re-subscription the session is no longer simulating and the new subscription does not check the active flag; nothing outside the replay and subscription bookkeeping changes |
| Tracking.SimulationTick | hooks/useCurrentActivity.ts:195-207 | without a running replay nothing changes; while paused or at the last-but-one point the replay ends and nothing is recorded; otherwise the point at the current index is recorded exactly as `updateStats` records it and the index advances; ending touches only the replay and subscription bookkeeping, and a successful re-subscription leaves a non-checking subscription |
| Tracking.ResumeAfterSimulationStaysRemoved | hooks/useCurrentActivity.ts:150-152 | after a simulation removes a live subscription, a resume keeps the removed handle and does not subscribe again |
| Tracking.PauseEndsReplay | hooks/useCurrentActivity.ts:195-201 | a pause during a replay ends the simulation at the next tick, which records nothing and keeps the distance |
| Tracking.StopKeepsPauseForNextRun | hooks/useCurrentActivity.ts:344-387 | after a stop, a simulation started at `now` (not 0) shows a negative elapsed time at every tick before `now` plus the old paused time, because that paused time is kept |
| Tracking.StepPreservesValid | hooks/useCurrentActivity.ts:50-420 | every action keeps the session invariant: active implies a timer, distance is non-negative, calories equal `floor(60*distance)`, a running replay is simulating with its index inside the path and mirrored in `currentSimulationIndex` |
| Tracking.RunPreservesValid | hooks/useCurrentActivity.ts:50-420 | the invariant holds after any sequence of actions |
| Tracking.SamplesAppendOnly | hooks/useCurrentActivity.ts:50-420 | every action except stop and a successful start only extends the recorded samples |
| Tracking.DistanceNondecreasing | hooks/useCurrentActivity.ts:394-404 | no action but stop decreases the distance |
| Tracking.PauseThenResume | hooks/useCurrentActivity.ts:272-337 | a pause at `p` (not 0) then a resume at `r` adds exactly `r - p` to the paused time, clears the pending pause and makes the session active |
| Tracking.ResumeWithoutPause | hooks/useCurrentActivity.ts:291-294 | a resume with no pending pause leaves the paused time unchanged |
| Tracking.ElapsedExcludesPause | hooks/useCurrentActivity.ts:376-387 | start at `t0`, pause at `p`, resume at `r`, tick at `t`: elapsed seconds are `floor(((t - t0) - (r - p))/1000)` |
| Tracking.StartThenStop | hooks/useCurrentActivity.ts:344-374 | stopping right after a successful start returns exactly the initial fix and clears the session |
| Tracking.SimulationRoundTrip | hooks/useCurrentActivity.ts:209-270 | starting then stopping the simulation preserves samples, distance and elapsed time |
| Tracking.ReplayRecords | hooks/useCurrentActivity.ts:194-207 | while active, `k` replay ticks record exactly the next `k` path points, as long as they stay before the last one |
| Tracking.ReplayStopsBeforeLast | hooks/useCurrentActivity.ts:195-201 | a replay records at most `length - 1` points: the following tick ends the replay and records nothing |
| Tracking.SimulationRecordsAtMost65 | hooks/useCurrentActivity.ts:194-217 | a simulation started by `startSimulation` records exactly the first 65 of its 66 points |
| TimeFormat.ClockFields | app/current-activity.tsx:133-136 | for non-negative seconds, `hrs*3600 + mins*60 + secs` equals the input, minutes and seconds lie in 0..59, and `hrs*60 + mins` is the whole minutes |
| TimeFormat.FormatTime | app/current-activity.tsx:137 | below 100 hours the text is exactly 8 characters with colons at positions 2 and 5 |
| TimeFormat.FormatTimeReadsBack | app/current-activity.tsx:133-137 | splitting the text on ':' gives three fields that `parseInt` reads back as hours, minutes and seconds (for negative input too) |
| TimeFormat.ParsePadded | hooks/useBadges.ts:86-87 | `parseInt` reads back any integer printed by `toString` and `padStart(2, '0')` |
| CurrentActivityScreen.FilterAccurate | app/current-activity.tsx:145 | the saved route is an order-preserving subsequence of the samples holding exactly the samples with no accuracy reading (or 0) or accuracy at most 20, each as often as recorded |
| CurrentActivityScreen.FinishActivity | app/current-activity.tsx:140-158 | both ways of stopping hand back the recorded samples, so the saved route is the accurate samples of the session; the speed on screen is copied; finishing outside a simulation clears the session |
| CurrentActivityScreen.FinishedRecord | app/current-activity.tsx:140-158 | the record's id reads back as the finishing time, its duration reads back as the clock fields of the elapsed seconds, calories, distance, speed and date are copied, and its route is an order-preserving subsequence of the samples holding exactly the accurate ones (multiplicities are stated by `CurrentActivityScreen.FinishedRoute`) |
| CurrentActivityScreen.FinishedRoute | app/current-activity.tsx:145 | the saved route holds each accurate sample exactly as often as it was recorded, and no inaccurate one |
| CurrentActivityScreen.FinishedSession | app/current-activity.tsx:142 | finishing while simulating keeps samples, distance and elapsed time; otherwise the session is cleared except for the pause bookkeeping |
| CurrentActivityScreen.TogglePlay | app/current-activity.tsx:205 | the button pauses an active session and resumes otherwise, so it always flips the active flag |
| CurrentActivityScreen.TogglePlayTwice | app/current-activity.tsx:205 | pressing play/pause at `p` then `r` on an active session adds `r - p` to the paused time |
| CurrentActivityScreen.ToggleSimulation | app/current-activity.tsx:172-178 | the simulation button never changes distance or elapsed time, keeps the samples (or seeds one), starts simulating when not simulating and ends it after a successful re-subscription |
| Badges.DurationMinutes | hooks/useBadges.ts:86-87 | a number is read only when the duration text has a minutes field after a ':' |
| Badges.FormattedDurationMinutes | hooks/useBadges.ts:86-87 | on `formatTime`'s text the rule reads `hours*60 + minutes`, which is the whole minutes for non-negative seconds |
| Badges.Condition | hooks/useBadges.ts:22-91 | an unparseable date fails both time-of-day rules; the endurance rule needs a ':'-separated duration; the 10K rule needs at least 5 km |
| Badges.RuleRelations | hooks/useBadges.ts:42-78 | the 10K rule implies the 5K rule, and no hour satisfies both the early and the late rule |
| Badges.NewBadges | hooks/useBadges.ts:100-112 | every new badge comes from the table, was not unlocked, satisfies its rule on the activity, and carries the activity's id and the unlock time |
| Badges.NewBadgesIds | hooks/useBadges.ts:100-112 | the new badges' ids are exactly the table entries that pass, in table order |
| Badges.Scan | hooks/useBadges.ts:100-112 | the `forEach` loop over a rule table builds exactly the scan's result |
| Badges.CheckActivityForBadges | hooks/useBadges.ts:96-124 | returns the scan's new badges and the unlocked list extended by them (unchanged when none) |
| Badges.NewBadgesDistinct | hooks/useBadges.ts:100-112 | no id is unlocked twice in one scan when the table has no repeats |
| Badges.RulesThatHoldAreUnlocked | hooks/useBadges.ts:100-116 | after a scan, every table rule that holds for the activity is unlocked |
| Badges.CheckTwiceUnlocksNothing | hooks/useBadges.ts:96-124 | checking the same activity a second time unlocks nothing |
| Badges.EnduranceOfFormattedDuration | hooks/useBadges.ts:85-89 | on the text `formatTime` produces, the endurance rule holds exactly when the elapsed seconds reach 3600 |
| Badges.ThresholdBoundaries | hooks/useBadges.ts:22-91 | 12 km/h and 500 kcal do not unlock (strict), 5 km unlocks the 5K badge but not the 10K one, hour 7 is neither early nor late, the first-run rule always holds |
| ActivityDetails.CheckPoint | app/activity-details.tsx:63-67 | an element passes exactly when it is an object with numeric latitude and longitude, and throws exactly when it is null |
| ActivityDetails.EveryPoint | app/activity-details.tsx:63-67 | `every` succeeds exactly when all elements pass, and throws exactly when a null comes before any failing element |
| ActivityDetails.HasValidRoute | app/activity-details.tsx:62-67 | the route is valid exactly when it is a non-empty array of drawable points; a non-array or empty route is invalid |
| ActivityDetails.FindIndex | app/activity-details.tsx:38 | finds the first stored activity with the id, or reports that none has it |
| ActivityDetails.SelectActivity | app/activity-details.tsx:35-54 | with an id and no route parameter, the first stored activity with that id is shown if one exists; otherwise the parameters are shown, with the parsed route when a route is given and an empty route otherwise |
| ActivityDetails.ActivityBadges | app/activity-details.tsx:57-59 | the listed badges are the order-preserving subsequence of unlocked badges whose activity id matches, each as often as it is unlocked |
| ActivityDetails.StoredRouteValid | app/activity-details.tsx:62-67 | a stored activity's route can be drawn exactly when it has a point |
| ActivityDetails.NewBadgesShown | app/activity-details.tsx:57-59 | after a scan for a new activity, the details screen lists exactly the badges that scan unlocked |
| RouteMap.Min | components/RouteMap.tsx:42-44 | the minimum is one of the values and no value is below it |
| RouteMap.Max | components/RouteMap.tsx:43-45 | the maximum is one of the values and no value is above it |
| RouteMap.RouteView | components/RouteMap.tsx:35-61 | an empty route has no view; otherwise the start marker is the first point and the finish marker the last |
| RouteMap.RegionFramesRoute | components/RouteMap.tsx:39-58 | the centre lies in the bounding box, both deltas are at least 0.005 and at least 1.3 times the extent, and every route point lies inside the region; an axis without extent gets the fallback delta 0.01 on its own |
| RouteMap.MarginDelta | components/RouteMap.tsx:52-53 | a zero extent falls back to 0.01; any other extent is scaled by 1.3, so a non-negative extent gives a positive delta at least 1.3 times it |
| RouteMap.FlatRouteUsesFallback | components/RouteMap.tsx:52-58 | a route without extent (a single point, say) is centred on it with delta 0.01 on both axes |

## Left out

- `calculateDistance` and `deg2rad` (haversine, hooks/useCurrentActivity.ts:423-436) are trigonometry on floating point. They are the parameter `dist`, and only non-negativity is relied on. Symmetry and `dist(a, a) = 0` are not assumed.
- Permission prompts, `getCurrentPositionAsync` and `watchPositionAsync` are outcome parameters (`StartEnv`, `watchStarted`, `resubscribed`). The 1-second backoff between fix attempts is not modelled. When the attempt list runs out, the remaining attempts count as failures.
- Asynchronous continuations are folded into the action that starts them. This covers resume's re-subscription and `stopSimulation`'s permission check and re-subscription. Interleavings with other actions before they complete are not modelled.
- `setInterval` scheduling is not modelled. Timer, replay and subscription deliveries are explicit events. Only the most recently stored handle is tracked, so some leaked handles are lost:
  - a second timer started by a resume without a pause;
  - the subscription and timer of a second `startActivity`.
- A leaked subscription would keep delivering samples, and the model does not show this.
- Leaked timers only repeat the same idempotent `updateTimer` while active.
- Simulation.SegmentPoint: the source calls `Date.now()` anew for every interpolated point. The model uses one `now` for the whole path, so stamps within a build are exact offsets of one another.
- Floating-point rounding and NaN are not modelled. Reals are exact, so the interpolation reaches the segment end exactly. `x || 0.01` and the truthiness tests treat only 0 as falsy.
- CurrentActivityScreen.FinishedRecord: the record keeps distance and speed as reals. The source stores them as `toFixed(2)` and `toFixed(1)` text, and that rounding is not modelled.
- The locale date text (`toLocaleDateString`) is a parameter. So are the hour from `new Date(date).getHours()` (`None` for an invalid date) and the parsed route parameter (`JSON.parse`). `Number(params.calories)` is not modelled.
- TimeFormat.ParseInt: models an optional sign and leading decimal digits only. Leading whitespace and the `0x` prefix that `parseInt` also accepts are not modelled. The strings it reads here come from `formatTime`.
- Badge names, descriptions and icons are fixed text per id and are left out. The unlock time (`toISOString`) is a parameter.
- Badges.NewBadges: the source reads the clock (`new Date().toISOString()`) separately for each badge unlocked in a scan. The model stamps every badge of one scan with the same `at`, so badges of one scan never carry different times.
- Persistence is not modelled: AsyncStorage reads and writes in `useActivities`, `useBadges` and `useTheme`, `addActivity` (a prepend plus a write) and `loadBadges`.
- The pedometer hook is not modelled. It is a sensor subscription with a platform branch.
- The following are rendering and are not modelled:
  - the live map in the tracking screen, which centres on the last sample;
  - the web-platform branch and missing native map modules in `RouteMap`;
  - animations, navigation, styles and the remaining screens.

=== FILE: activities.dfy ===
/** The record of a finished activity, as kept in the activity list. */
module Activities {
  import opened Geo

  /**
   * `distance` and `speed` are the session's values; the two-decimal and one-decimal
   * text the application stores for them is not modelled.
   */
  datatype Activity = Activity(
    id: string,
    date: string,
    distance: real,
    duration: string,
    calories: int,
    speed: real,
    route: seq<LocationPoint>)
}

=== FILE: activity_details.dfy ===
/**
 * The activity-details screen: which activity it shows, which badges belong to it, and
 * whether its route can be drawn.
 */
module ActivityDetails {
  import opened Wrappers
  import opened Seqs
  import opened Geo
  import opened Activities
  import opened Badges

  /** A JavaScript value, as `JSON.parse` can produce it or the store holds it. */
  datatype JsValue =
    | JsUndefined
    | JsNull
    | JsBool(b: bool)
    | JsNumber(n: real)
    | JsString(s: string)
    | JsArray(items: seq<JsValue>)
    | JsObject(fields: map<string, JsValue>)

  /** `typeof v === 'object'`, which also holds of arrays and of null. */
  predicate IsObjectType(v: JsValue) {
    v.JsObject? || v.JsArray? || v.JsNull?
  }

  /** The error a property read on null or undefined throws. */
  datatype TypeError = TypeError

  /** `v.name`: undefined when the property is missing; a throw on null and undefined. */
  function Property(v: JsValue, name: string): Result<JsValue, TypeError> {
    match v
    case JsNull => Failure(TypeError)
    case JsUndefined => Failure(TypeError)
    case JsObject(fields) => Success(if name in fields then fields[name] else JsUndefined)
    case _ => Success(JsUndefined)
  }

  /** A point the map can draw: an object with numeric `latitude` and `longitude`. */
  predicate IsMapPoint(v: JsValue) {
    && v.JsObject?
    && "latitude" in v.fields && v.fields["latitude"].JsNumber?
    && "longitude" in v.fields && v.fields["longitude"].JsNumber?
  }

  /** The test applied to each route element, in its evaluation order. */
  function CheckPoint(v: JsValue): (r: Result<bool, TypeError>)
    ensures r.Failure? <==> v.JsNull?
    ensures r == Success(true) <==> IsMapPoint(v)
  {
    if !IsObjectType(v) then Success(false)
    else match Property(v, "latitude")
      case Failure(e) => Failure(e)
      case Success(lat) =>
        if !lat.JsNumber? then Success(false)
        else match Property(v, "longitude")
          case Failure(e) => Failure(e)
          case Success(lng) => Success(lng.JsNumber?)
  }

  /** `route.every(...)`: stops at the first element that fails or throws. */
  function EveryPoint(items: seq<JsValue>): (r: Result<bool, TypeError>)
    ensures r == Success(true) <==> forall i :: 0 <= i < |items| ==> IsMapPoint(items[i])
    ensures r.Failure? <==>
      exists i :: 0 <= i < |items| && items[i].JsNull? && forall j :: 0 <= j < i ==> IsMapPoint(items[j])
    decreases |items|
  {
    if |items| == 0 then Success(true)
    else
      var rest := EveryPoint(items[1..]);
      assert forall i :: 1 <= i < |items| ==> items[i] == items[1..][i - 1];
      match CheckPoint(items[0])
      case Failure(e) => Failure(e)
      case Success(ok) =>
        if !ok then
          assert !items[0].JsNull? && !IsMapPoint(items[0]);
          Success(false)
        else
          assert IsMapPoint(items[0]);
          EveryPointShift(items);
          rest
  }

  /** Behind a drawable first element, the first null of the tail is the first null of the whole. */
  lemma EveryPointShift(items: seq<JsValue>)
    requires |items| > 0 && IsMapPoint(items[0])
    ensures (exists i :: 0 <= i < |items| && items[i].JsNull? && forall j :: 0 <= j < i ==> IsMapPoint(items[j]))
        <==> (exists i :: 0 <= i < |items[1..]| && items[1..][i].JsNull? && forall j :: 0 <= j < i ==> IsMapPoint(items[1..][j]))
  {
    var tail := items[1..];
    if i :| 0 <= i < |items| && items[i].JsNull? && forall j :: 0 <= j < i ==> IsMapPoint(items[j]) {
      assert i > 0;
      assert tail[i - 1].JsNull? && forall j :: 0 <= j < i - 1 ==> IsMapPoint(tail[j]) by {
        forall j | 0 <= j < i - 1 ensures IsMapPoint(tail[j]) {
          assert tail[j] == items[j + 1];
        }
      }
    }
    if i :| 0 <= i < |tail| && tail[i].JsNull? && forall j :: 0 <= j < i ==> IsMapPoint(tail[j]) {
      assert items[i + 1].JsNull?;
      forall j | 0 <= j < i + 1 ensures IsMapPoint(items[j]) {
        if j > 0 { assert items[j] == tail[j - 1]; }
      }
    }
  }

  /**
   * `hasValidRoute`: an array with at least one element, every element a drawable point.
   * A null element reached before any invalid one makes the check throw.
   */
  function HasValidRoute(route: JsValue): (r: Result<bool, TypeError>)
    ensures r == Success(true) <==>
      route.JsArray? && |route.items| > 0 && forall i :: 0 <= i < |route.items| ==> IsMapPoint(route.items[i])
    ensures !route.JsArray? || route.items == [] ==> r == Success(false)
  {
    if !route.JsArray? || |route.items| == 0 then Success(false) else EveryPoint(route.items)
  }

  // ---------------------------------------------------------------------------
  // Which activity is shown
  // ---------------------------------------------------------------------------

  /** The screen's route parameters; `None` is a parameter that was not given. */
  datatype Params = Params(
    id: Option<string>,
    date: Option<string>,
    distance: Option<string>,
    duration: Option<string>,
    calories: Option<string>,
    speed: Option<string>,
    route: Option<string>)

  /** JavaScript truthiness of a parameter: absent and empty are falsy. */
  predicate Given(p: Option<string>) {
    p.Some? && |p.value| > 0
  }

  /** The activity on screen: one from the store, or one assembled from the parameters. */
  datatype Shown =
    | Stored(activity: Activity)
    | FromParams(params: Params, route: JsValue)

  function ShownId(sh: Shown): Option<string> {
    match sh
    case Stored(a) => Some(a.id)
    case FromParams(p, _) => p.id
  }

  /** The store's route as the JavaScript array the screen inspects. */
  function PointValue(p: LocationPoint): (v: JsValue)
    ensures IsMapPoint(v)
  {
    JsObject(map[
      "latitude" := JsNumber(p.latitude),
      "longitude" := JsNumber(p.longitude),
      "timestamp" := JsNumber(p.timestamp as real)])
  }

  function ShownRoute(sh: Shown): JsValue {
    match sh
    case Stored(a) => JsArray(seq(|a.route|, i requires 0 <= i < |a.route| => PointValue(a.route[i])))
    case FromParams(_, route) => route
  }

  /** `activities.find(a => a.id === id)`: the index of the first match. */
  function FindIndex(activities: seq<Activity>, id: string): (r: Option<nat>)
    ensures r.Some? ==> r.value < |activities| && activities[r.value].id == id
    ensures r.Some? ==> forall j :: 0 <= j < r.value ==> activities[j].id != id
    ensures r.None? ==> forall j :: 0 <= j < |activities| ==> activities[j].id != id
    decreases |activities|
  {
    if |activities| == 0 then None
    else if activities[0].id == id then Some(0)
    else match FindIndex(activities[1..], id)
      case None => None
      case Some(k) => Some(k + 1)
  }

  /**
   * The `activity` memo. `parsedRoute` is what `JSON.parse` returns for the route
   * parameter; it is only consulted when that parameter is given.
   */
  function SelectActivity(params: Params, parsedRoute: JsValue, activities: seq<Activity>): (sh: Shown)
    ensures Given(params.id) && !Given(params.route) && FindIndex(activities, params.id.value).Some? ==>
      sh == Stored(activities[FindIndex(activities, params.id.value).value])
    ensures !(Given(params.id) && !Given(params.route) && FindIndex(activities, params.id.value).Some?) ==>
      sh.FromParams? && sh.params == params && ShownId(sh) == params.id
    ensures !Given(params.route) && sh.FromParams? ==> sh.route == JsArray([])
    ensures Given(params.route) ==> sh == FromParams(params, parsedRoute)
  {
    var found := if Given(params.id) && !Given(params.route) then FindIndex(activities, params.id.value) else None;
    if found.Some? then Stored(activities[found.value])
    else FromParams(params, if Given(params.route) then parsedRoute else JsArray([]))
  }

  /** The `activityBadges` memo: the unlocked badges earned by this activity, in unlock order. */
  function ActivityBadges(unlocked: seq<Badge>, id: Option<string>): (r: seq<Badge>)
    ensures IsSubsequence(r, unlocked)
    ensures forall b :: b in r <==> b in unlocked && b.activityId == id
    ensures forall b :: multiset(r)[b] == if b.activityId == id then multiset(unlocked)[b] else 0
  {
    FilterMultiset(unlocked, (b: Badge) => b.activityId == id);
    Filter(unlocked, (b: Badge) => b.activityId == id)
  }

  /** A stored activity's route can be drawn exactly when it has a point. */
  lemma StoredRouteValid(a: Activity)
    ensures HasValidRoute(ShownRoute(Stored(a))) == Success(|a.route| > 0)
  {
    var items := ShownRoute(Stored(a)).items;
    assert forall i :: 0 <= i < |items| ==> IsMapPoint(items[i]);
  }

  /** The badges a scan unlocks for a finished activity are exactly the ones the details screen lists among them. */
  lemma NewBadgesShown(unlocked: seq<Badge>, a: Activity, hour: Option<int>, at: string)
    requires forall b :: b in unlocked ==> b.activityId != Some(a.id)
    ensures var earned := NewBadges(AvailableBadges, unlocked, a, hour, at);
      ActivityBadges(unlocked + earned, Some(a.id)) == earned
  {
    var earned := NewBadges(AvailableBadges, unlocked, a, hour, at);
    var keep := (b: Badge) => b.activityId == Some(a.id);
    FilterAppend(unlocked, earned, keep);
    FilterNone(unlocked, keep);
    FilterKeepsAll(earned, keep);
  }
}

=== FILE: badges.dfy ===
/** Achievements: the fixed rule table and the scan that unlocks new badges for an activity. */
module Badges {
  import opened Wrappers
  import opened Seqs
  import opened Activities
  import opened TimeFormat

  datatype BadgeId =
    | FirstRun | SpeedDemon | Distance5k | Distance10k
    | CalorieBurner | EarlyBird | NightOwl | Endurance

  /** `AVAILABLE_BADGES`, in table order. */
  const AvailableBadges: seq<BadgeId> :=
    [FirstRun, SpeedDemon, Distance5k, Distance10k, CalorieBurner, EarlyBird, NightOwl, Endurance]

  /** An unlocked badge; its name, description and icon are fixed by its id. */
  datatype Badge = Badge(id: BadgeId, unlockedAt: Option<string>, activityId: Option<string>)

  /** `parseInt(hours) * 60 + parseInt(minutes)` of the duration text; `None` is NaN. */
  function DurationMinutes(duration: string): (r: Option<int>)
    ensures r.Some? ==> |Split(duration, ':')| >= 2
  {
    var parts := Split(duration, ':');
    var hours := ParseInt(parts[0]);
    var minutes := if |parts| > 1 then ParseInt(parts[1]) else None;
    if hours.Some? && minutes.Some? then Some(hours.value * 60 + minutes.value) else None
  }

  /**
   * The rule of each badge. `hour` is what `new Date(activity.date).getHours()` yields,
   * `None` when the date text does not parse (NaN fails both comparisons).
   */
  predicate Condition(id: BadgeId, a: Activity, hour: Option<int>)
    ensures hour.None? && (id == EarlyBird || id == NightOwl) ==> !Condition(id, a, hour)
    ensures id == Endurance && Condition(id, a, hour) ==> |Split(a.duration, ':')| >= 2
    ensures id == Distance10k && Condition(id, a, hour) ==> a.distance >= 5.0
  {
    match id
    case FirstRun => true
    case SpeedDemon => a.speed > 12.0
    case Distance5k => a.distance >= 5.0
    case Distance10k => a.distance >= 10.0
    case CalorieBurner => a.calories > 500
    case EarlyBird => hour.Some? && hour.value < 7
    case NightOwl => hour.Some? && hour.value >= 20
    case Endurance => DurationMinutes(a.duration).Some? && DurationMinutes(a.duration).value >= 60
  }

  predicate IsUnlocked(unlocked: seq<Badge>, id: BadgeId) {
    exists i :: 0 <= i < |unlocked| && unlocked[i].id == id
  }

  function Ids(badges: seq<Badge>): (ids: seq<BadgeId>)
    ensures |ids| == |badges|
    ensures forall i :: 0 <= i < |badges| ==> ids[i] == badges[i].id
  {
    seq(|badges|, i requires 0 <= i < |badges| => badges[i].id)
  }

  /** Whether the scan unlocks `id` for `a`. */
  predicate Unlocks(unlocked: seq<Badge>, a: Activity, hour: Option<int>, id: BadgeId) {
    !IsUnlocked(unlocked, id) && Condition(id, a, hour)
  }

  /** The scan's test, as a function of the badge id. */
  function UnlocksFor(unlocked: seq<Badge>, a: Activity, hour: Option<int>): BadgeId -> bool {
    id => Unlocks(unlocked, a, hour, id)
  }

  /**
   * The badges the scan over `rules` unlocks, stamped with the unlock time `at` and the
   * activity's id.
   */
  function NewBadges(rules: seq<BadgeId>, unlocked: seq<Badge>, a: Activity, hour: Option<int>, at: string)
    : (r: seq<Badge>)
    ensures forall b :: b in r ==>
      b.id in rules && Unlocks(unlocked, a, hour, b.id) && b.activityId == Some(a.id) && b.unlockedAt == Some(at)
    decreases |rules|
  {
    if |rules| == 0 then []
    else
      var rest := NewBadges(rules[1..], unlocked, a, hour, at);
      if Unlocks(unlocked, a, hour, rules[0]) then [Badge(rules[0], Some(at), Some(a.id))] + rest
      else rest
  }

  /**
   * `checkActivityForBadges`: the loop over the rule table; returns the new badges and the
   * updated list of unlocked badges.
   */
  method CheckActivityForBadges(unlocked: seq<Badge>, a: Activity, hour: Option<int>, at: string)
    returns (newBadges: seq<Badge>, updated: seq<Badge>)
    ensures newBadges == NewBadges(AvailableBadges, unlocked, a, hour, at)
    ensures updated == unlocked + newBadges
  {
    newBadges := Scan(AvailableBadges, unlocked, a, hour, at);
    if |newBadges| > 0 {
      updated := unlocked + newBadges;
    } else {
      updated := unlocked;
    }
  }

  /** The `forEach` over a rule table. */
  method Scan(rules: seq<BadgeId>, unlocked: seq<Badge>, a: Activity, hour: Option<int>, at: string)
    returns (newBadges: seq<Badge>)
    ensures newBadges == NewBadges(rules, unlocked, a, hour, at)
  {
    newBadges := [];
    var i := 0;
    while i < |rules|
      invariant 0 <= i <= |rules|
      invariant newBadges + NewBadges(rules[i..], unlocked, a, hour, at) == NewBadges(rules, unlocked, a, hour, at)
    {
      var badge := rules[i];
      var isAlreadyUnlocked := IsUnlocked(unlocked, badge);
      var holds := Condition(badge, a, hour);
      NewBadgesCons(rules[i..], unlocked, a, hour, at);
      assert rules[i..][1..] == rules[i + 1..];
      ghost var rest := NewBadges(rules[i + 1..], unlocked, a, hour, at);
      ghost var before := newBadges;
      assert (!isAlreadyUnlocked && holds) == Unlocks(unlocked, a, hour, badge);
      if !isAlreadyUnlocked && holds {
        var b := Badge(badge, Some(at), Some(a.id));
        newBadges := newBadges + [b];
        assert newBadges + rest == before + ([b] + rest);
      }
      i := i + 1;
    }
    assert rules[i..] == [];
  }

  /** One step of the scan. */
  lemma NewBadgesCons(rules: seq<BadgeId>, unlocked: seq<Badge>, a: Activity, hour: Option<int>, at: string)
    requires |rules| > 0
    ensures NewBadges(rules, unlocked, a, hour, at)
         == (if Unlocks(unlocked, a, hour, rules[0]) then [Badge(rules[0], Some(at), Some(a.id))] else [])
            + NewBadges(rules[1..], unlocked, a, hour, at)
  {
  }

  /** The ids the scan unlocks are the rules that pass, in table order. */
  lemma {:induction false} NewBadgesIds(rules: seq<BadgeId>, unlocked: seq<Badge>, a: Activity, hour: Option<int>, at: string)
    ensures Ids(NewBadges(rules, unlocked, a, hour, at)) == Filter(rules, UnlocksFor(unlocked, a, hour))
    decreases |rules|
  {
    if |rules| > 0 {
      var keep := UnlocksFor(unlocked, a, hour);
      NewBadgesIds(rules[1..], unlocked, a, hour, at);
      var rest := NewBadges(rules[1..], unlocked, a, hour, at);
      var passes := Unlocks(unlocked, a, hour, rules[0]);
      assert keep(rules[0]) == passes;
      assert Filter(rules, keep) == (if passes then [rules[0]] else []) + Filter(rules[1..], keep);
      if passes {
        IdsCons(Badge(rules[0], Some(at), Some(a.id)), rest);
      }
    }
  }

  lemma IdsCons(b: Badge, rest: seq<Badge>)
    ensures Ids([b] + rest) == [b.id] + Ids(rest)
  {
  }

  /** The scan never repeats an id when the table has none twice. */
  lemma NewBadgesDistinct(rules: seq<BadgeId>, unlocked: seq<Badge>, a: Activity, hour: Option<int>, at: string)
    requires Distinct(rules)
    ensures Distinct(Ids(NewBadges(rules, unlocked, a, hour, at)))
  {
    NewBadgesIds(rules, unlocked, a, hour, at);
    FilterDistinct(rules, UnlocksFor(unlocked, a, hour));
  }

  /** The rule table names each badge once. */
  lemma AvailableBadgesDistinct()
    ensures Distinct(AvailableBadges)
  {
  }

  /** Every rule that holds ends up unlocked, whether it already was or is new now. */
  lemma RulesThatHoldAreUnlocked(rules: seq<BadgeId>, unlocked: seq<Badge>, a: Activity, hour: Option<int>, at: string, id: BadgeId)
    requires id in rules && Condition(id, a, hour)
    ensures IsUnlocked(unlocked + NewBadges(rules, unlocked, a, hour, at), id)
  {
    var r := NewBadges(rules, unlocked, a, hour, at);
    var all := unlocked + r;
    if IsUnlocked(unlocked, id) {
      var i :| 0 <= i < |unlocked| && unlocked[i].id == id;
      assert all[i].id == id;
    } else {
      var keep := UnlocksFor(unlocked, a, hour);
      assert keep(id);
      var ids := Filter(rules, keep);
      assert id in ids;
      NewBadgesIds(rules, unlocked, a, hour, at);
      var j :| 0 <= j < |ids| && ids[j] == id;
      assert r[j].id == id;
      assert all[|unlocked| + j] == r[j];
    }
  }

  /** Checking the same activity a second time unlocks nothing. */
  lemma CheckTwiceUnlocksNothing(unlocked: seq<Badge>, a: Activity, hour: Option<int>, at: string, at': string)
    ensures var updated := unlocked + NewBadges(AvailableBadges, unlocked, a, hour, at);
      NewBadges(AvailableBadges, updated, a, hour, at') == []
  {
    var updated := unlocked + NewBadges(AvailableBadges, unlocked, a, hour, at);
    var again := NewBadges(AvailableBadges, updated, a, hour, at');
    if |again| > 0 {
      var b := again[0];
      assert b in again;
      RulesThatHoldAreUnlocked(AvailableBadges, unlocked, a, hour, at, b.id);
      assert false;
    }
  }

  /**
   * On the text `formatTime` produces, the endurance rule holds exactly when the activity
   * lasted at least an hour.
   */
  lemma EnduranceOfFormattedDuration(a: Activity, hour: Option<int>, seconds: int)
    requires a.duration == FormatTime(seconds)
    ensures Condition(Endurance, a, hour) <==> seconds >= 3600
  {
    FormatTimeReadsBack(seconds);
    var h, m := Hours(seconds), Minutes(seconds);
    assert DurationMinutes(a.duration) == Some(h * 60 + m);
    if seconds >= 0 {
      ClockFields(seconds);
    } else {
      assert h <= -1;
      assert m <= 0;
    }
  }

  /** The whole minutes the endurance rule reads back from `formatTime`'s text. */
  lemma FormattedDurationMinutes(seconds: int)
    ensures DurationMinutes(FormatTime(seconds)) == Some(Hours(seconds) * 60 + Minutes(seconds))
    ensures seconds >= 0 ==> DurationMinutes(FormatTime(seconds)) == Some(seconds / 60)
  {
    FormatTimeReadsBack(seconds);
    if seconds >= 0 {
      ClockFields(seconds);
    }
  }

  /** Rules that imply or exclude each other: 10K implies 5K, and no hour is both early and late. */
  lemma RuleRelations(a: Activity, hour: Option<int>)
    ensures Condition(Distance10k, a, hour) ==> Condition(Distance5k, a, hour)
    ensures !(Condition(EarlyBird, a, hour) && Condition(NightOwl, a, hour))
  {
  }

  /** The boundaries: 12 km/h and 500 kcal do not unlock; exactly 5 km unlocks the 5K badge only. */
  lemma ThresholdBoundaries(a: Activity, hour: Option<int>)
    requires a.speed == 12.0 && a.distance == 5.0 && a.calories == 500
    requires hour == Some(7)
    ensures !Condition(SpeedDemon, a, hour) && !Condition(CalorieBurner, a, hour)
    ensures Condition(Distance5k, a, hour) && !Condition(Distance10k, a, hour)
    ensures !Condition(EarlyBird, a, hour) && !Condition(NightOwl, a, hour)
    ensures Condition(FirstRun, a, hour)
  {
  }
}

=== FILE: current_activity.dfy ===
/** The live-tracking screen: its duration display, its controls and finishing an activity. */
module CurrentActivityScreen {
  import opened Wrappers
  import opened Seqs
  import opened Geo
  import opened Tracking
  import opened TimeFormat
  import opened Activities

  /** Samples reporting a worse accuracy than this (in metres) are dropped from the saved route. */
  const MaxAccuracy: real := 20.0

  /** `!loc.accuracy || loc.accuracy <= 20`: no reading (or 0) counts as accurate. */
  predicate IsAccurate(p: LocationPoint) {
    !Truthy(p.accuracy) || p.accuracy.value <= MaxAccuracy
  }

  /** The route that is saved: the accurate samples, in recording order. */
  function FilterAccurate(route: seq<LocationPoint>): (r: seq<LocationPoint>)
    ensures IsSubsequence(r, route)
    ensures forall p :: p in r <==> p in route && IsAccurate(p)
    ensures forall p :: multiset(r)[p] == if IsAccurate(p) then multiset(route)[p] else 0
  {
    FilterMultiset(route, IsAccurate);
    Filter(route, IsAccurate)
  }

  datatype Finished = Finished(activity: Activity, session: Session)

  /**
   * `handleFinishActivity` at time `now` with the locale date text `date`: stop the
   * simulation or the activity, and build the record from the values on screen.
   * `resubscribed` is the outcome of the re-subscription `stopSimulation` starts.
   */
  function FinishActivity(s: Session, now: int, date: string, resubscribed: bool): (r: Finished)
    // both ways of stopping hand back the samples as recorded
    ensures r.activity.route == FilterAccurate(s.locations)
    ensures r.activity.speed == s.speed
    ensures !s.isSimulating ==> IsCleared(r.session)
  {
    var (finalLocations, after) := if s.isSimulating then StopSimulation(s, resubscribed) else Stop(s);
    Finished(
      Activity(IntToString(now), date, s.distance, FormatTime(s.elapsedTime), s.calories, s.speed,
               FilterAccurate(finalLocations)),
      after)
  }

  /**
   * The saved record: its id reads back as the finishing time, its duration reads back as
   * the clock fields of the elapsed seconds, calories are copied, and its route is exactly
   * the accurate samples recorded, in order.
   */
  lemma FinishedRecord(s: Session, now: int, date: string, resubscribed: bool)
    ensures var a := FinishActivity(s, now, date, resubscribed).activity;
      && ParseInt(a.id) == Some(now)
      && ParseInt(Split(a.duration, ':')[0]) == Some(Hours(s.elapsedTime))
      && |Split(a.duration, ':')| == 3
      && ParseInt(Split(a.duration, ':')[1]) == Some(Minutes(s.elapsedTime))
      && ParseInt(Split(a.duration, ':')[2]) == Some(Seconds(s.elapsedTime))
      && a.calories == s.calories && a.distance == s.distance && a.speed == s.speed && a.date == date
      && IsSubsequence(a.route, s.locations)
      && (forall p :: p in a.route <==> p in s.locations && IsAccurate(p))
  {
    ParsePrinted(now);
    FormatTimeReadsBack(s.elapsedTime);
  }

  /** The saved route keeps every accurate sample as often as it was recorded, and no other. */
  lemma FinishedRoute(s: Session, now: int, date: string, resubscribed: bool, p: LocationPoint)
    ensures var a := FinishActivity(s, now, date, resubscribed).activity;
      multiset(a.route)[p] == if IsAccurate(p) then multiset(s.locations)[p] else 0
  {
  }

  /**
   * Finishing while simulating only stops the simulation, so the session keeps its samples
   * and statistics; otherwise the session is cleared, except for the pause bookkeeping.
   */
  lemma FinishedSession(s: Session, now: int, date: string, resubscribed: bool)
    ensures var t := FinishActivity(s, now, date, resubscribed).session;
      && (s.isSimulating ==>
            t.locations == s.locations && t.distance == s.distance && t.elapsedTime == s.elapsedTime)
      && (!s.isSimulating ==>
            IsCleared(t) && t.pausedTime == s.pausedTime && t.lastPauseTime == s.lastPauseTime)
  {
  }

  /** The play/pause button: pause when active, resume otherwise. */
  function TogglePlay(s: Session, now: int, watchStarted: bool): (r: Session)
    ensures r.isActive == !s.isActive
    ensures r.timer == !s.isActive
    ensures s.isActive ==> r.lastPauseTime == Some(now) && r.pausedTime == s.pausedTime
    ensures !s.isActive ==> r.lastPauseTime.None?
    ensures r.locations == s.locations && r.distance == s.distance
  {
    if s.isActive then Pause(s, now) else Resume(s, now, watchStarted)
  }

  /** Pressing play/pause twice, at `p` then at `r`, adds `r - p` to the paused time. */
  lemma TogglePlayTwice(s: Session, p: int, r: int, watchStarted: bool)
    requires s.isActive && p != 0
    ensures var t := TogglePlay(TogglePlay(s, p, watchStarted), r, watchStarted);
      t.isActive && t.pausedTime == s.pausedTime + (r - p) && t.lastPauseTime.None?
  {
    PauseThenResume(s, p, r, watchStarted);
  }

  /** The simulation button: stop simulating when simulating, start otherwise. */
  function ToggleSimulation(s: Session, now: int, resubscribed: bool): (r: Session)
    ensures r.locations == s.locations || (|s.locations| == 0 && |r.locations| == 1)
    ensures r.distance == s.distance && r.elapsedTime == s.elapsedTime
    ensures !s.isSimulating ==> r.isSimulating
    ensures s.isSimulating && resubscribed ==> !r.isSimulating
  {
    if s.isSimulating then StopSimulation(s, resubscribed).1 else StartSimulation(s, now)
  }
}

=== FILE: geo.dfy ===
/** Location samples as recorded by the tracker, and the distance between two positions. */
module Geo {
  import opened Wrappers

  /** A bare position in degrees. */
  datatype Coord = Coord(latitude: real, longitude: real)

  /** A recorded sample (`LocationPoint`); absent optional fields are `None`. */
  datatype LocationPoint = LocationPoint(
    latitude: real,
    longitude: real,
    timestamp: int,
    accuracy: Option<real>,
    altitude: Option<real>,
    speed: Option<real>)
  {
    function Position(): Coord {
      Coord(latitude, longitude)
    }
  }

  /** A fix as the positioning service reports it: optional fields are `None` when reported as null. */
  datatype Fix = Fix(
    latitude: real,
    longitude: real,
    timestamp: int,
    accuracy: Option<real>,
    altitude: Option<real>,
    speed: Option<real>)

  /**
   * The distance in km between two positions. The application computes it with the
   * haversine formula; the model keeps it abstract and relies only on its being
   * non-negative, which holds because it is 6371 * 2 * atan2(sqrt a, sqrt(1 - a)).
   */
  type DistanceFn = f: (Coord, Coord) -> real | forall p, q :: f(p, q) >= 0.0
    witness (p: Coord, q: Coord) => 0.0

  /** JavaScript truthiness of an optional number: absent and 0 are both falsy (NaN is not modelled). */
  predicate Truthy(x: Option<real>) {
    x.Some? && x.value != 0.0
  }

  /** `x || undefined`: a falsy reading becomes absent. */
  function OrUndefined(x: Option<real>): (r: Option<real>)
    ensures r.Some? <==> Truthy(x)
    ensures r.Some? ==> r == x
  {
    if Truthy(x) then x else None
  }

  /** The sample the subscription callbacks and `startActivity` build from a fix. */
  function FromFix(f: Fix): (p: LocationPoint)
    ensures p.Position() == Coord(f.latitude, f.longitude) && p.timestamp == f.timestamp
    ensures p.accuracy != Some(0.0) && p.altitude != Some(0.0) && p.speed != Some(0.0)
    ensures Truthy(p.speed) == Truthy(f.speed) && Truthy(p.accuracy) == Truthy(f.accuracy)
  {
    LocationPoint(f.latitude, f.longitude, f.timestamp,
      OrUndefined(f.accuracy), OrUndefined(f.altitude), OrUndefined(f.speed))
  }
}

=== FILE: route_map.dfy ===
/** The framing of a saved route on the map: bounds, centre, zoom deltas and the two markers. */
module RouteMap {
  import opened Wrappers
  import opened Geo

  /** Margin added around the route's extent. */
  const Margin: real := 1.3
  /** Delta used when the route has no extent along an axis. */
  const FallbackDelta: real := 0.01
  /** The smallest delta the map is given. */
  const MinDelta: real := 0.005

  /** `Math.min(...xs)`. */
  function Min(xs: seq<real>): (m: real)
    requires |xs| > 0
    ensures m in xs
    ensures forall i :: 0 <= i < |xs| ==> m <= xs[i]
    decreases |xs|
  {
    if |xs| == 1 then xs[0]
    else
      var rest := Min(xs[1..]);
      assert forall i :: 1 <= i < |xs| ==> xs[i] == xs[1..][i - 1];
      if xs[0] <= rest then xs[0] else rest
  }

  /** `Math.max(...xs)`. */
  function Max(xs: seq<real>): (m: real)
    requires |xs| > 0
    ensures m in xs
    ensures forall i :: 0 <= i < |xs| ==> xs[i] <= m
    decreases |xs|
  {
    if |xs| == 1 then xs[0]
    else
      var rest := Max(xs[1..]);
      assert forall i :: 1 <= i < |xs| ==> xs[i] == xs[1..][i - 1];
      if xs[0] >= rest then xs[0] else rest
  }

  function Latitudes(route: seq<Coord>): (r: seq<real>)
    ensures |r| == |route| && forall i :: 0 <= i < |route| ==> r[i] == route[i].latitude
  {
    seq(|route|, i requires 0 <= i < |route| => route[i].latitude)
  }

  function Longitudes(route: seq<Coord>): (r: seq<real>)
    ensures |r| == |route| && forall i :: 0 <= i < |route| ==> r[i] == route[i].longitude
  {
    seq(|route|, i requires 0 <= i < |route| => route[i].longitude)
  }

  /** `span * 1.3 || 0.01`: a zero product falls back to the default delta. */
  function MarginDelta(span: real): (r: real)
    ensures span == 0.0 ==> r == FallbackDelta
    ensures span != 0.0 ==> r == span * Margin
    ensures span >= 0.0 ==> r > 0.0 && r >= span * Margin
  {
    if span * Margin == 0.0 then FallbackDelta else span * Margin
  }

  /** `Math.max(delta, 0.005)`. */
  function Adjusted(delta: real): real {
    if delta >= MinDelta then delta else MinDelta
  }

  datatype Region = Region(latitude: real, longitude: real, latitudeDelta: real, longitudeDelta: real)

  /** What the component draws: the initial region and the start and finish markers. */
  datatype View = View(region: Region, start: Coord, finish: Coord)

  /** The map view for a route; none for an empty route. */
  function RouteView(route: seq<Coord>): (r: Option<View>)
    ensures r.None? <==> |route| == 0
    ensures r.Some? ==> r.value.start == route[0] && r.value.finish == route[|route| - 1]
  {
    if |route| == 0 then None
    else
      var lats, lngs := Latitudes(route), Longitudes(route);
      var minLat, maxLat := Min(lats), Max(lats);
      var minLng, maxLng := Min(lngs), Max(lngs);
      var region := Region(
        (minLat + maxLat) / 2.0,
        (minLng + maxLng) / 2.0,
        Adjusted(MarginDelta(maxLat - minLat)),
        Adjusted(MarginDelta(maxLng - minLng)));
      Some(View(region, route[0], route[|route| - 1]))
  }

  /**
   * The region's centre lies within the route's bounding box, both deltas are at least
   * 0.005 and at least 1.3 times the route's extent, so the whole route fits in the region.
   */
  lemma RegionFramesRoute(route: seq<Coord>)
    requires |route| > 0
    ensures var g := RouteView(route).value.region;
      var lats, lngs := Latitudes(route), Longitudes(route);
      && Min(lats) <= g.latitude <= Max(lats)
      && Min(lngs) <= g.longitude <= Max(lngs)
      && g.latitudeDelta >= MinDelta && g.longitudeDelta >= MinDelta
      && g.latitudeDelta >= Margin * (Max(lats) - Min(lats))
      && g.longitudeDelta >= Margin * (Max(lngs) - Min(lngs))
      // the fallback applies to each axis on its own
      && (Max(lats) == Min(lats) ==> g.latitudeDelta == FallbackDelta)
      && (Max(lngs) == Min(lngs) ==> g.longitudeDelta == FallbackDelta)
      && forall i :: 0 <= i < |route| ==>
           && g.latitude - g.latitudeDelta / 2.0 <= route[i].latitude <= g.latitude + g.latitudeDelta / 2.0
           && g.longitude - g.longitudeDelta / 2.0 <= route[i].longitude <= g.longitude + g.longitudeDelta / 2.0
  {
    var lats, lngs := Latitudes(route), Longitudes(route);
    assert Min(lats) <= lats[0] <= Max(lats);
    assert Min(lngs) <= lngs[0] <= Max(lngs);
  }

  /** A route without extent, such as a single point, is shown with the fallback delta. */
  lemma FlatRouteUsesFallback(route: seq<Coord>)
    requires |route| > 0
    requires forall i :: 0 <= i < |route| ==> route[i] == route[0]
    ensures RouteView(route).value.region == Region(route[0].latitude, route[0].longitude, FallbackDelta, FallbackDelta)
  {
    var lats, lngs := Latitudes(route), Longitudes(route);
    var mn := Min(lats);
    var mx := Max(lats);
    assert mn == route[0].latitude && mx == route[0].latitude;
    assert Min(lngs) == route[0].longitude && Max(lngs) == route[0].longitude;
  }
}

=== FILE: seqs.dfy ===
/** Sequence helpers shared by the screens and the tracking model. */
module Seqs {

  /** The last element of a non-empty sequence (`xs[xs.length - 1]`). */
  function Last<T>(xs: seq<T>): T
    requires |xs| > 0
  {
    xs[|xs| - 1]
  }

  /** `a` can be obtained from `b` by deleting elements, keeping the order. */
  predicate IsSubsequence<T(==)>(a: seq<T>, b: seq<T>)
    decreases |b|
  {
    |a| == 0 ||
    (|b| > 0 && if a[0] == b[0] then IsSubsequence(a[1..], b[1..]) else IsSubsequence(a, b[1..]))
  }

  /** `Array.prototype.filter`: the elements of `s` that satisfy `keep`, in order. */
  function Filter<T(==,!new)>(s: seq<T>, keep: T -> bool): (r: seq<T>)
    ensures |r| <= |s|
    ensures forall x :: x in r ==> x in s && keep(x)
    ensures forall x :: x in s && keep(x) ==> x in r
    ensures IsSubsequence(r, s)
    decreases |s|
  {
    if |s| == 0 then []
    else
      var rest := Filter(s[1..], keep);
      assert s == [s[0]] + s[1..];
      if keep(s[0]) then [s[0]] + rest
      else
        assert |rest| > 0 ==> rest[0] != s[0] by {
          if |rest| > 0 { assert rest[0] in rest; }
        }
        rest
  }

  /** Each value occurs in the result as often as in the input if it passes, and not at all otherwise. */
  lemma {:induction false} FilterCounts<T(!new)>(s: seq<T>, keep: T -> bool, x: T)
    ensures multiset(Filter(s, keep))[x] == if keep(x) then multiset(s)[x] else 0
    decreases |s|
  {
    if |s| > 0 {
      FilterCounts(s[1..], keep, x);
      assert s == [s[0]] + s[1..];
    }
  }

  /** `FilterCounts` for every value at once. */
  lemma FilterMultiset<T(!new)>(s: seq<T>, keep: T -> bool)
    ensures forall x :: multiset(Filter(s, keep))[x] == if keep(x) then multiset(s)[x] else 0
  {
    forall x {
      FilterCounts(s, keep, x);
    }
  }

  /** Filtering keeps the whole sequence exactly when every element passes. */
  lemma {:induction false} FilterKeepsAll<T(!new)>(s: seq<T>, keep: T -> bool)
    ensures Filter(s, keep) == s <==> forall i :: 0 <= i < |s| ==> keep(s[i])
    decreases |s|
  {
    if |s| > 0 {
      FilterKeepsAll(s[1..], keep);
      var rest := Filter(s[1..], keep);
      if !keep(s[0]) {
        assert |Filter(s, keep)| <= |s[1..]| < |s|;
      } else {
        assert forall i :: 0 <= i < |s| - 1 ==> s[1..][i] == s[i + 1];
      }
    }
  }

  /** No element occurs twice. */
  predicate Distinct<T(==)>(s: seq<T>) {
    forall i, j :: 0 <= i < j < |s| ==> s[i] != s[j]
  }

  /** Filtering a sequence without repetitions gives one without repetitions. */
  lemma {:induction false} FilterDistinct<T(!new)>(s: seq<T>, keep: T -> bool)
    requires Distinct(s)
    ensures Distinct(Filter(s, keep))
    decreases |s|
  {
    if |s| > 0 {
      assert Distinct(s[1..]);
      FilterDistinct(s[1..], keep);
      var rest := Filter(s[1..], keep);
      assert s[0] !in s[1..];
      assert s[0] !in rest;
    }
  }

  /** Filtering distributes over concatenation. */
  lemma {:induction false} FilterAppend<T(!new)>(a: seq<T>, b: seq<T>, keep: T -> bool)
    ensures Filter(a + b, keep) == Filter(a, keep) + Filter(b, keep)
    decreases |a|
  {
    if |a| > 0 {
      FilterAppend(a[1..], b, keep);
      assert (a + b)[1..] == a[1..] + b;
    } else {
      assert a + b == b;
    }
  }

  /** Nothing is kept when nothing passes. */
  lemma {:induction false} FilterNone<T(!new)>(s: seq<T>, keep: T -> bool)
    requires forall i :: 0 <= i < |s| ==> !keep(s[i])
    ensures Filter(s, keep) == []
    decreases |s|
  {
    if |s| > 0 {
      FilterNone(s[1..], keep);
    }
  }
}

=== FILE: simulation.dfy ===
/** The synthetic GPS feed: a fixed loop of waypoints, densified by linear interpolation. */
module Simulation {
  import opened Wrappers
  import opened Geo

  /** The closed loop around the school (`SIMULATION_POINTS`); first and last coincide. */
  const Waypoints: seq<Coord> := [
    Coord(47.478870, -0.563408),
    Coord(47.479200, -0.563150),
    Coord(47.479500, -0.563800),
    Coord(47.479100, -0.564500),
    Coord(47.478600, -0.564000),
    Coord(47.478870, -0.563408)
  ]

  /** Interpolation steps per segment; steps 0..Steps are emitted, so both endpoints appear. */
  const Steps: nat := 10
  const PointsPerSegment: nat := Steps + 1

  /** Accuracy (m) and speed (m/s) stamped on every synthetic sample. */
  const SimulatedAccuracy: real := 10.0
  const SimulatedSpeed: real := 3.0

  /** The path to replay: the last recorded position (or the first waypoint), then the whole loop. */
  function FullPath(last: Option<Coord>): (full: seq<Coord>)
    ensures |full| == |Waypoints| + 1
    ensures full[1..] == Waypoints
    ensures full[0] == (if last.Some? then last.value else Waypoints[0])
  {
    [if last.Some? then last.value else Waypoints[0]] + Waypoints
  }

  /** Point `step` of segment `i`, running from `a` to `b`, stamped relative to `now`. */
  function SegmentPoint(a: Coord, b: Coord, i: nat, step: nat, now: int): LocationPoint
  {
    var progress := step as real / Steps as real;
    LocationPoint(
      a.latitude + (b.latitude - a.latitude) * progress,
      a.longitude + (b.longitude - a.longitude) * progress,
      now + (i * Steps + step) * 1000,
      Some(SimulatedAccuracy), None, Some(SimulatedSpeed))
  }

  /** The inner loop over `step` for one segment. */
  function Segment(a: Coord, b: Coord, i: nat, now: int): (r: seq<LocationPoint>)
    ensures |r| == PointsPerSegment
  {
    seq(PointsPerSegment, step requires 0 <= step < PointsPerSegment => SegmentPoint(a, b, i, step, now))
  }

  /** The interpolated path: one segment per consecutive pair of `full`. */
  function Interpolate(full: seq<Coord>, now: int): (path: seq<LocationPoint>)
    ensures |full| >= 1 ==> |path| == (|full| - 1) * PointsPerSegment
    decreases |full|
  {
    if |full| <= 1 then []
    else Interpolate(full[..|full| - 1], now) + Segment(full[|full| - 2], full[|full| - 1], |full| - 2, now)
  }

  /** Extending the waypoint list by one appends exactly one segment. */
  lemma InterpolateSnoc(full: seq<Coord>, i: nat, now: int)
    requires i + 1 < |full|
    ensures Interpolate(full[..i + 2], now) == Interpolate(full[..i + 1], now) + Segment(full[i], full[i + 1], i, now)
  {
    assert full[..i + 2][..i + 1] == full[..i + 1];
  }

  /** Point `step` of segment `i` sits at index `i * 11 + step` of the path. */
  lemma {:induction false} InterpolateAt(full: seq<Coord>, i: nat, step: nat, now: int)
    requires i + 1 < |full| && step < PointsPerSegment
    ensures i * PointsPerSegment + step < |Interpolate(full, now)|
    ensures Interpolate(full, now)[i * PointsPerSegment + step] == SegmentPoint(full[i], full[i + 1], i, step, now)
    decreases |full|
  {
    var n := |full|;
    var front := Interpolate(full[..n - 1], now);
    assert |front| == (n - 2) * PointsPerSegment;
    if i + 2 < n {
      InterpolateAt(full[..n - 1], i, step, now);
      assert full[..n - 1][i] == full[i] && full[..n - 1][i + 1] == full[i + 1];
    } else {
      assert i == n - 2;
    }
  }

  /** Segment `i` starts exactly at `full[i]` and ends exactly at `full[i + 1]`. */
  lemma SegmentEndpoints(full: seq<Coord>, i: nat, now: int)
    requires i + 1 < |full|
    ensures (i + 1) * PointsPerSegment <= |Interpolate(full, now)|
    ensures Interpolate(full, now)[i * PointsPerSegment].Position() == full[i]
    ensures Interpolate(full, now)[i * PointsPerSegment + Steps].Position() == full[i + 1]
  {
    InterpolateAt(full, i, 0, now);
    InterpolateAt(full, i, Steps, now);
  }

  /** The timestamp at index `k` of the path: `now + (k - k / 11) * 1000`. */
  lemma TimestampAt(full: seq<Coord>, k: nat, now: int)
    requires k < |Interpolate(full, now)|
    ensures Interpolate(full, now)[k].timestamp == now + (k - k / PointsPerSegment) * 1000
  {
    var i := k / PointsPerSegment;
    var step := k % PointsPerSegment;
    assert k == i * PointsPerSegment + step;
    assert |full| >= 1;
    assert i + 1 < |full| by {
      assert i * PointsPerSegment < (|full| - 1) * PointsPerSegment;
    }
    InterpolateAt(full, i, step, now);
  }

  /** Timestamps never decrease along the path; consecutive segments share their boundary stamp. */
  lemma TimestampsNondecreasing(full: seq<Coord>, j: nat, k: nat, now: int)
    requires j <= k < |Interpolate(full, now)|
    ensures Interpolate(full, now)[j].timestamp <= Interpolate(full, now)[k].timestamp
  {
    TimestampAt(full, j, now);
    TimestampAt(full, k, now);
    assert k - k / PointsPerSegment >= j - j / PointsPerSegment by {
      var a, b := j / PointsPerSegment, k / PointsPerSegment;
      assert a <= b;
      assert (k - j) >= (b - a) * PointsPerSegment - Steps;
    }
  }

  /** The last point of segment `i` and the first point of segment `i + 1` carry the same stamp. */
  lemma BoundaryStampsShared(full: seq<Coord>, i: nat, now: int)
    requires i + 2 < |full|
    ensures (i + 1) * PointsPerSegment < |Interpolate(full, now)|
    ensures Interpolate(full, now)[i * PointsPerSegment + Steps].timestamp
         == Interpolate(full, now)[(i + 1) * PointsPerSegment].timestamp
  {
    InterpolateAt(full, i, Steps, now);
    InterpolateAt(full, i + 1, 0, now);
  }

  /** The replayed path for the six-point loop plus a seed point has 66 samples, from the seed back to the start of the loop. */
  lemma SimulatedPathShape(last: Option<Coord>, now: int)
    ensures |Interpolate(FullPath(last), now)| == 66
    ensures Interpolate(FullPath(last), now)[0].Position() == FullPath(last)[0]
    ensures Interpolate(FullPath(last), now)[65].Position() == Waypoints[0]
  {
    var full := FullPath(last);
    SegmentEndpoints(full, 0, now);
    SegmentEndpoints(full, 5, now);
  }

  /** The nested loops of `startSimulation` build exactly the interpolated path. */
  method BuildInterpolatedPath(full: seq<Coord>, now: int) returns (path: seq<LocationPoint>)
    ensures path == Interpolate(full, now)
  {
    path := [];
    if |full| <= 1 {
      return;
    }
    var i := 0;
    while i < |full| - 1
      invariant 0 <= i <= |full| - 1
      invariant path == Interpolate(full[..i + 1], now)
    {
      var start, end := full[i], full[i + 1];
      var step := 0;
      ghost var before := path;
      while step <= Steps
        invariant 0 <= step <= Steps + 1
        invariant path == before + Segment(start, end, i, now)[..step]
      {
        path := path + [SegmentPoint(start, end, i, step, now)];
        step := step + 1;
      }
      InterpolateSnoc(full, i, now);
      i := i + 1;
    }
    assert full[..|full|] == full;
  }
}

=== FILE: time_format.dfy ===
/**
 * The `HH:MM:SS` duration text of the tracking screen, and the reading of it back
 * with `split(':')` and `parseInt` that the endurance achievement relies on.
 */
module TimeFormat {
  import opened Wrappers

  // ---------------------------------------------------------------------------
  // Clock fields
  // ---------------------------------------------------------------------------

  /** JavaScript `%`: the remainder takes the sign of the dividend. */
  function JsRemainder(a: int, b: int): (r: int)
    requires b > 0
    ensures a >= 0 ==> 0 <= r < b
    ensures a < 0 ==> -b < r <= 0
  {
    if a >= 0 then a % b else -((-a) % b)
  }

  /** `Math.floor(seconds / 3600)`; Dafny's `/` floors when the divisor is positive. */
  function Hours(seconds: int): int {
    seconds / 3600
  }

  /** `Math.floor((seconds % 3600) / 60)`. */
  function Minutes(seconds: int): int {
    JsRemainder(seconds, 3600) / 60
  }

  /** `seconds % 60`. */
  function Seconds(seconds: int): int {
    JsRemainder(seconds, 60)
  }

  /** For a non-negative count the three fields are a proper clock reading of it. */
  lemma ClockFields(seconds: int)
    requires seconds >= 0
    ensures Hours(seconds) * 3600 + Minutes(seconds) * 60 + Seconds(seconds) == seconds
    ensures 0 <= Minutes(seconds) <= 59 && 0 <= Seconds(seconds) <= 59
    ensures Hours(seconds) * 60 + Minutes(seconds) == seconds / 60
  {
    var h, rest := seconds / 3600, seconds % 3600;
    assert seconds == h * 3600 + rest;
    var m, sec := rest / 60, rest % 60;
    assert rest == m * 60 + sec;
    assert seconds % 60 == sec by {
      assert seconds == (h * 60 + m) * 60 + sec;
    }
    assert seconds / 60 == h * 60 + m by {
      assert seconds == (h * 60 + m) * 60 + sec;
    }
  }

  // ---------------------------------------------------------------------------
  // Decimal text
  // ---------------------------------------------------------------------------

  predicate IsDigit(c: char) {
    '0' <= c <= '9'
  }

  predicate AllDigits(s: string) {
    forall i :: 0 <= i < |s| ==> IsDigit(s[i])
  }

  function DigitChar(d: nat): (c: char)
    requires d < 10
    ensures IsDigit(c)
  {
    ('0' as int + d) as char
  }

  function DigitValue(c: char): (d: nat)
    requires IsDigit(c)
    ensures d < 10
  {
    c as int - '0' as int
  }

  /** `n.toString()` for a natural number. */
  function NatToString(n: nat): (s: string)
    ensures |s| >= 1 && AllDigits(s)
    ensures n < 10 <==> |s| == 1
    decreases n
  {
    if n < 10 then [DigitChar(n)] else NatToString(n / 10) + [DigitChar(n % 10)]
  }

  /** `n.toString()`. */
  function IntToString(n: int): (s: string)
    ensures |s| >= 1 && ':' !in s
  {
    if n < 0 then "-" + NatToString(-n) else NatToString(n)
  }

  /** `s.padStart(2, '0')` for a non-empty string. */
  function PadStart2(s: string): (r: string)
    requires |s| >= 1
    ensures |r| == if |s| >= 2 then |s| else 2
  {
    if |s| >= 2 then s else "0" + s
  }

  /** `formatTime`: zero-padded hours, minutes and seconds joined by colons. */
  function FormatTime(seconds: int): (r: string)
    ensures 0 <= seconds < 360000 ==> |r| == 8 && r[2] == ':' && r[5] == ':'
  {
    var hh := PadStart2(IntToString(Hours(seconds)));
    var mm := PadStart2(IntToString(Minutes(seconds)));
    var ss := PadStart2(IntToString(Seconds(seconds)));
    FieldWidths(seconds);
    hh + ":" + mm + ":" + ss
  }

  /** Below 100 hours every padded field is two characters wide. */
  lemma FieldWidths(seconds: int)
    ensures 0 <= seconds < 360000 ==>
      && |PadStart2(IntToString(Hours(seconds)))| == 2
      && |PadStart2(IntToString(Minutes(seconds)))| == 2
      && |PadStart2(IntToString(Seconds(seconds)))| == 2
  {
    if 0 <= seconds < 360000 {
      ClockFields(seconds);
      TwoDigits(Hours(seconds));
      TwoDigits(Minutes(seconds));
      TwoDigits(Seconds(seconds));
    }
  }

  /** A number below 100 prints in at most two characters, so padding makes exactly two. */
  lemma TwoDigits(n: int)
    requires 0 <= n < 100
    ensures |PadStart2(IntToString(n))| == 2
  {
    if n >= 10 {
      assert NatToString(n) == NatToString(n / 10) + [DigitChar(n % 10)];
    }
  }

  // ---------------------------------------------------------------------------
  // Reading the text back
  // ---------------------------------------------------------------------------

  /** `s.split(sep)`: the pieces between separators, always at least one. */
  function Split(s: string, sep: char): (parts: seq<string>)
    ensures |parts| >= 1
    decreases |s|
  {
    if |s| == 0 then [""]
    else
      var rest := Split(s[1..], sep);
      if s[0] == sep then [""] + rest else [[s[0]] + rest[0]] + rest[1..]
  }

  /** A piece without separator splits to itself; a separator starts a new piece. */
  lemma {:induction false} SplitJoin(a: string, sep: char, b: string)
    requires sep !in a
    ensures Split(a, sep) == [a]
    ensures Split(a + [sep] + b, sep) == [a] + Split(b, sep)
    decreases |a|
  {
    if |a| > 0 {
      SplitJoin(a[1..], sep, b);
      assert (a + [sep] + b)[1..] == a[1..] + [sep] + b;
      assert [a[0]] + a[1..] == a;
    } else {
      assert a + [sep] + b == [sep] + b;
    }
  }

  /** The number of leading decimal digits of `s`. */
  function DigitRun(s: string): (k: nat)
    ensures k <= |s| && AllDigits(s[..k])
    ensures k < |s| ==> !IsDigit(s[k])
    decreases |s|
  {
    if |s| == 0 || !IsDigit(s[0]) then 0
    else
      var k := 1 + DigitRun(s[1..]);
      assert s[..k] == [s[0]] + s[1..][..k - 1];
      k
  }

  /** The value of a digit string, most significant digit first. */
  function DigitsValue(ds: string): nat
    requires AllDigits(ds)
    decreases |ds|
  {
    if |ds| == 0 then 0 else DigitsValue(ds[..|ds| - 1]) * 10 + DigitValue(ds[|ds| - 1])
  }

  /**
   * `parseInt(s)`: an optional sign followed by at least one digit; the digits after the
   * longest run are ignored. `None` stands for NaN.
   */
  function ParseInt(s: string): Option<int> {
    var negative := |s| > 0 && s[0] == '-';
    var body := if |s| > 0 && (s[0] == '-' || s[0] == '+') then s[1..] else s;
    var k := DigitRun(body);
    if k == 0 then None
    else Some(if negative then -(DigitsValue(body[..k]) as int) else DigitsValue(body[..k]))
  }

  /** Reading back a printed natural number gives the number. */
  lemma {:induction false} NatToStringValue(n: nat)
    ensures DigitsValue(NatToString(n)) == n
    decreases n
  {
    if n >= 10 {
      NatToStringValue(n / 10);
      var s := NatToString(n);
      assert s[..|s| - 1] == NatToString(n / 10);
    }
  }

  /** A leading zero does not change the value. */
  lemma {:induction false} LeadingZeroValue(ds: string)
    requires AllDigits(ds)
    ensures AllDigits("0" + ds) && DigitsValue("0" + ds) == DigitsValue(ds)
    decreases |ds|
  {
    if |ds| > 0 {
      var z := "0" + ds;
      assert z[..|z| - 1] == "0" + ds[..|ds| - 1];
      LeadingZeroValue(ds[..|ds| - 1]);
    }
  }

  /** A whole-digit string is one run. */
  lemma DigitRunAll(ds: string)
    requires AllDigits(ds)
    ensures DigitRun(ds) == |ds|
    decreases |ds|
  {
    if |ds| > 0 {
      DigitRunAll(ds[1..]);
    }
  }

  /** `parseInt` reads back what `toString` and `padStart(2, '0')` printed. */
  lemma ParsePadded(n: int)
    ensures ParseInt(PadStart2(IntToString(n))) == Some(n)
  {
    if n < 0 {
      ParseNegative(n);
    } else {
      ParseNonNegative(n);
    }
  }

  lemma ParseNegative(n: int)
    requires n < 0
    ensures ParseInt(PadStart2(IntToString(n))) == Some(n)
  {
    var digits := NatToString(-n);
    NatToStringValue(-n);
    var s := PadStart2(IntToString(n));
    assert s == "-" + digits;
    assert s[1..] == digits;
    DigitRunAll(digits);
    assert digits[..|digits|] == digits;
  }

  lemma ParseNonNegative(n: nat)
    ensures ParseInt(PadStart2(IntToString(n))) == Some(n)
  {
    var digits := NatToString(n);
    NatToStringValue(n);
    var s := PadStart2(digits);
    if |digits| == 1 {
      LeadingZeroValue(digits);
      assert s == "0" + digits;
    }
    assert AllDigits(s) && DigitsValue(s) == n;
    DigitRunAll(s);
    assert s[..|s|] == s;
  }

  /** `parseInt` reads back what `toString` printed. */
  lemma ParsePrinted(n: int)
    ensures ParseInt(IntToString(n)) == Some(n)
  {
    var s := IntToString(n);
    if |s| >= 2 {
      assert PadStart2(s) == s;
      ParsePadded(n);
    } else {
      NatToStringValue(n);
      DigitRunAll(s);
      assert s[..|s|] == s;
    }
  }

  /** The pieces of the formatted text, split on ':'. */
  lemma FormatTimeSplits(seconds: int)
    ensures Split(FormatTime(seconds), ':') == [
      PadStart2(IntToString(Hours(seconds))),
      PadStart2(IntToString(Minutes(seconds))),
      PadStart2(IntToString(Seconds(seconds)))]
  {
    var hh := PadStart2(IntToString(Hours(seconds)));
    var mm := PadStart2(IntToString(Minutes(seconds)));
    var ss := PadStart2(IntToString(Seconds(seconds)));
    assert FormatTime(seconds) == hh + ":" + mm + ":" + ss;
    assert hh + ":" + mm + ":" + ss == hh + [':'] + (mm + [':'] + ss);
    NoColon(Hours(seconds));
    NoColon(Minutes(seconds));
    NoColon(Seconds(seconds));
    SplitJoin(hh, ':', mm + [':'] + ss);
    SplitJoin(mm, ':', ss);
    SplitJoin(ss, ':', "");
  }

  lemma NoColon(n: int)
    ensures ':' !in PadStart2(IntToString(n))
  {
    var s := IntToString(n);
    if |s| < 2 {
      assert PadStart2(s) == ['0'] + s;
    }
  }

  /** Hours and minutes read back from the text of `formatTime`. */
  lemma FormatTimeReadsBack(seconds: int)
    ensures var parts := Split(FormatTime(seconds), ':');
      |parts| == 3
      && ParseInt(parts[0]) == Some(Hours(seconds))
      && ParseInt(parts[1]) == Some(Minutes(seconds))
      && ParseInt(parts[2]) == Some(Seconds(seconds))
  {
    FormatTimeSplits(seconds);
    ParsePadded(Hours(seconds));
    ParsePadded(Minutes(seconds));
    ParsePadded(Seconds(seconds));
  }
}

=== FILE: tracking.dfy ===
/**
 * The live-tracking session store: one session record and the actions that change it.
 * Every action is a pure transition; the wall clock is the explicit parameter `now` (ms),
 * and the outcome of each asynchronous call into the positioning service is a parameter.
 */
module Tracking {
  import opened Wrappers
  import opened Seqs
  import opened Geo
  import Simulation

  /** The location-subscription handle: none, a live one, or one removed but still stored. */
  datatype Subscription =
    | NoSubscription
    | Watching(checksActive: bool)  // whether its callback drops samples while not active
    | Removed

  /** The simulation-interval handle: none, a running replay, or one cleared but still stored. */
  datatype SimInterval =
    | NoInterval
    | Replaying(path: seq<LocationPoint>, index: nat)
    | Cleared

  datatype Session = Session(
    isActive: bool,
    startTime: Option<int>,
    elapsedTime: int,        // whole seconds
    pausedTime: int,         // ms spent paused
    lastPauseTime: Option<int>,
    distance: real,          // km
    speed: real,             // km/h
    calories: int,
    locations: seq<LocationPoint>,
    subscription: Subscription,
    timer: bool,             // a timer interval handle is stored
    isSimulating: bool,
    simulation: SimInterval,
    simulationIndex: nat)

  /** The store's initial state. */
  const Initial: Session :=
    Session(false, None, 0, 0, None, 0.0, 0.0, 0, [], NoSubscription, false, false, NoInterval, 0)

  /** JavaScript truthiness of a timestamp: absent and 0 are both falsy. */
  predicate IsSet(t: Option<int>) {
    t.Some? && t.value != 0
  }

  /** The calorie estimate: 60 kcal per km, rounded down. */
  function Calories(distance: real): (c: int)
    ensures c as real <= distance * 60.0 < c as real + 1.0
  {
    (distance * 60.0).Floor
  }

  /** Facts every reachable session satisfies. */
  predicate Valid(s: Session) {
    && (s.isActive ==> s.timer)
    && s.distance >= 0.0
    && s.calories == Calories(s.distance)
    && (s.simulation.Replaying? ==>
          && s.isSimulating
          && s.simulation.index < |s.simulation.path|
          && s.simulationIndex == s.simulation.index)
  }

  /** The fields `stopActivity` clears, at their cleared values. */
  predicate IsCleared(s: Session) {
    && !s.isActive && !s.isSimulating
    && s.startTime.None? && s.elapsedTime == 0
    && s.distance == 0.0 && s.speed == 0.0 && s.calories == 0
    && s.locations == []
    && s.subscription.NoSubscription? && !s.timer
    && s.simulation.NoInterval? && s.simulationIndex == 0
  }

  // ---------------------------------------------------------------------------
  // Timer and samples
  // ---------------------------------------------------------------------------

  /** `updateTimer`: recompute the elapsed seconds from the clock. */
  function UpdateTimer(s: Session, now: int): (r: Session)
    ensures r == s.(elapsedTime := r.elapsedTime)
    ensures !IsSet(s.startTime) ==> r.elapsedTime == 0
    ensures IsSet(s.startTime) ==>
      r.elapsedTime * 1000 <= now - s.startTime.value - s.pausedTime < (r.elapsedTime + 1) * 1000
  {
    if !IsSet(s.startTime) then s.(elapsedTime := 0)
    else s.(elapsedTime := (now - s.startTime.value - s.pausedTime) / 1000)
  }

  /** A tick of a timer interval: its callback updates the timer only while active. */
  function TimerTick(s: Session, now: int): (r: Session)
    ensures r == s.(elapsedTime := r.elapsedTime)
    ensures !s.isActive ==> r.elapsedTime == s.elapsedTime
    ensures s.isActive && !IsSet(s.startTime) ==> r.elapsedTime == 0
    ensures s.isActive && IsSet(s.startTime) ==>
      r.elapsedTime * 1000 <= now - s.startTime.value - s.pausedTime < (r.elapsedTime + 1) * 1000
  {
    if s.isActive then UpdateTimer(s, now) else s
  }

  /** `updateStats`: record a sample and refresh distance, speed and calories. */
  function UpdateStats(s: Session, dist: DistanceFn, p: LocationPoint): (r: Session)
    ensures r.locations == s.locations + [p]
    ensures r.distance == s.distance + (if |s.locations| > 0 then dist(Last(s.locations).Position(), p.Position()) else 0.0)
    ensures r.distance >= s.distance
    ensures r.speed == (if Truthy(p.speed) then p.speed.value * 3.6 else 0.0)
    ensures r.calories == Calories(r.distance)
    ensures r == s.(locations := r.locations, distance := r.distance, speed := r.speed, calories := r.calories)
  {
    var distance := if |s.locations| > 0 then s.distance + dist(Last(s.locations).Position(), p.Position()) else s.distance;
    var speed := if Truthy(p.speed) then p.speed.value * 3.6 else 0.0;
    s.(locations := s.locations + [p], distance := distance, speed := speed, calories := Calories(distance))
  }

  /** A fix delivered by the stored subscription, if it is live. */
  function LiveSample(s: Session, dist: DistanceFn, f: Fix): (r: Session)
    ensures s.subscription.Watching? && (s.isActive || !s.subscription.checksActive) ==>
      r == UpdateStats(s, dist, FromFix(f))
    ensures !(s.subscription.Watching? && (s.isActive || !s.subscription.checksActive)) ==> r == s
  {
    match s.subscription
    case Watching(checksActive) =>
      if checksActive && !s.isActive then s else UpdateStats(s, dist, FromFix(f))
    case _ => s
  }

  // ---------------------------------------------------------------------------
  // startActivity
  // ---------------------------------------------------------------------------

  datatype StartError = PermissionDenied | InitialFixUnavailable | SubscriptionFailed

  /**
   * What the positioning service answers during `startActivity`: the permission decision,
   * the outcome of each successive `getCurrentPositionAsync` (None = it threw; attempts past
   * the end of the list also throw), and whether `watchPositionAsync` succeeded.
   */
  datatype StartEnv = StartEnv(permissionGranted: bool, fixAttempts: seq<Option<Fix>>, watchStarted: bool)

  const MaxAttempts: nat := 3

  function AttemptOutcome(attempts: seq<Option<Fix>>, i: nat): Option<Fix> {
    if i < |attempts| then attempts[i] else None
  }

  /** The first successful attempt among attempts `i`, ..., `MaxAttempts - 1`. */
  function FirstFix(attempts: seq<Option<Fix>>, i: nat): (r: Option<Fix>)
    ensures r.Some? <==> exists k :: i <= k < MaxAttempts && AttemptOutcome(attempts, k).Some?
    ensures r.Some? ==> exists k :: i <= k < MaxAttempts && AttemptOutcome(attempts, k) == r
    decreases MaxAttempts - i
  {
    if i >= MaxAttempts then None
    else if AttemptOutcome(attempts, i).Some? then AttemptOutcome(attempts, i)
    else FirstFix(attempts, i + 1)
  }

  /**
   * The retry loop of `startActivity`: try at most three times, stop at the first fix.
   * `failures` counts the attempts that threw.
   */
  method AcquireInitialFix(attempts: seq<Option<Fix>>) returns (fix: Option<Fix>, failures: nat)
    ensures fix == FirstFix(attempts, 0)
    ensures failures <= MaxAttempts
    ensures fix.Some? ==> failures < MaxAttempts && AttemptOutcome(attempts, failures) == fix
    ensures forall k :: 0 <= k < failures ==> AttemptOutcome(attempts, k).None?
    ensures fix.None? ==> failures == MaxAttempts
  {
    fix := None;
    failures := 0;
    while fix.None? && failures < MaxAttempts
      invariant failures <= MaxAttempts
      invariant forall k :: 0 <= k < failures ==> AttemptOutcome(attempts, k).None?
      invariant fix.None? ==> FirstFix(attempts, failures) == FirstFix(attempts, 0)
      invariant fix.Some? ==> failures < MaxAttempts && AttemptOutcome(attempts, failures) == fix && fix == FirstFix(attempts, 0)
      decreases MaxAttempts - failures, if fix.None? then 1 else 0
    {
      var outcome := AttemptOutcome(attempts, failures);
      if outcome.Some? {
        fix := outcome;
      } else {
        failures := failures + 1;
      }
    }
  }

  /** `startActivity`: on any failure the error is thrown and the session is left as it was. */
  function Start(s: Session, now: int, env: StartEnv): (r: Result<Session, StartError>)
    ensures !env.permissionGranted ==> r == Failure(PermissionDenied)
    ensures env.permissionGranted && FirstFix(env.fixAttempts, 0).None? ==> r == Failure(InitialFixUnavailable)
    ensures env.permissionGranted && FirstFix(env.fixAttempts, 0).Some? && !env.watchStarted ==> r == Failure(SubscriptionFailed)
    ensures r.Success? <==> env.permissionGranted && FirstFix(env.fixAttempts, 0).Some? && env.watchStarted
    ensures r.Success? ==>
      && r.value.locations == [FromFix(FirstFix(env.fixAttempts, 0).value)]
      && r.value.isActive && r.value.timer && r.value.subscription == Watching(true)
      && r.value.startTime == Some(now) && r.value.pausedTime == 0 && r.value.lastPauseTime.None?
    // nothing else is reset: distance, speed, calories, elapsed time and the simulation fields are kept
    ensures r.Success? ==>
      r.value == s.(isActive := true, startTime := Some(now), pausedTime := 0, lastPauseTime := None,
                    subscription := Watching(true), timer := true, locations := r.value.locations)
  {
    if !env.permissionGranted then Failure(PermissionDenied)
    else
      var fix := FirstFix(env.fixAttempts, 0);
      if fix.None? then Failure(InitialFixUnavailable)
      else if !env.watchStarted then Failure(SubscriptionFailed)
      else Success(s.(
        isActive := true,
        startTime := Some(now),
        pausedTime := 0,
        lastPauseTime := None,
        subscription := Watching(true),
        timer := true,
        locations := [FromFix(fix.value)]))
  }

  // ---------------------------------------------------------------------------
  // pause, resume, stop
  // ---------------------------------------------------------------------------

  /** `pauseActivity`: no guard; clears the timer and remembers when the pause began. */
  function Pause(s: Session, now: int): (r: Session)
    ensures !r.isActive && !r.timer && r.lastPauseTime == Some(now)
    ensures r.(isActive := s.isActive, timer := s.timer, lastPauseTime := s.lastPauseTime) == s
  {
    s.(isActive := false, timer := false, lastPauseTime := Some(now))
  }

  /**
   * `resumeActivity`: no guard; accounts the pending pause, starts a new timer and, when
   * no subscription handle is stored, subscribes again (`watchStarted` is the outcome).
   */
  function Resume(s: Session, now: int, watchStarted: bool): (r: Session)
    ensures r.isActive && r.timer && r.lastPauseTime.None?
    ensures r.pausedTime == s.pausedTime + (if IsSet(s.lastPauseTime) then now - s.lastPauseTime.value else 0)
    ensures r.subscription == (if s.subscription.NoSubscription? && watchStarted then Watching(true) else s.subscription)
    ensures r == s.(isActive := true, timer := true, lastPauseTime := None,
                    pausedTime := r.pausedTime, subscription := r.subscription)
  {
    var paused := if IsSet(s.lastPauseTime) then s.pausedTime + (now - s.lastPauseTime.value) else s.pausedTime;
    var subscription := if s.subscription.NoSubscription? && watchStarted then Watching(true) else s.subscription;
    s.(isActive := true, timer := true, lastPauseTime := None, pausedTime := paused, subscription := subscription)
  }

  /** `stopActivity`: release every handle, clear the session and hand back the recorded samples. */
  function Stop(s: Session): (r: (seq<LocationPoint>, Session))
    ensures r.0 == s.locations
    ensures IsCleared(r.1)
    ensures r.1.pausedTime == s.pausedTime && r.1.lastPauseTime == s.lastPauseTime
  {
    (s.locations,
     s.(isActive := false, isSimulating := false, startTime := None, elapsedTime := 0,
        distance := 0.0, speed := 0.0, calories := 0, locations := [],
        subscription := NoSubscription, timer := false, simulation := NoInterval, simulationIndex := 0))
  }

  // ---------------------------------------------------------------------------
  // Simulation
  // ---------------------------------------------------------------------------

  /** The synthetic path `startSimulation` builds from the current samples. */
  function SimulatedPath(locations: seq<LocationPoint>, now: int): (path: seq<LocationPoint>)
    ensures |path| == 66
  {
    var last := if |locations| > 0 then Some(Last(locations).Position()) else None;
    Simulation.SimulatedPathShape(last, now);
    Simulation.Interpolate(Simulation.FullPath(last), now)
  }

  /**
   * `startSimulation`: a no-op while simulating; otherwise removes the live subscription
   * (the handle stays stored), keeps or creates the timer, and starts replaying.
   */
  function StartSimulation(s: Session, now: int): (r: Session)
    ensures s.isSimulating ==> r == s
    ensures !s.isSimulating ==>
      && r.isActive && r.isSimulating && r.timer
      && r.simulation == Replaying(SimulatedPath(s.locations, now), 0)
      && (|s.locations| > 0 ==> r.locations == s.locations)
      && (|s.locations| == 0 ==> r.locations == [SimulatedPath(s.locations, now)[0]])
      && r.startTime == (if IsSet(s.startTime) then s.startTime else Some(now))
      && r.distance == s.distance && r.elapsedTime == s.elapsedTime && r.pausedTime == s.pausedTime
      && r.subscription == (if s.subscription.NoSubscription? then NoSubscription else Removed)
    // nothing else changes: speed, calories, the pending pause and the other fields are kept
    ensures !s.isSimulating ==>
      r == s.(isActive := true, isSimulating := true, timer := true, simulation := r.simulation,
              simulationIndex := 0, startTime := r.startTime, locations := r.locations,
              subscription := r.subscription)
  {
    if s.isSimulating then s
    else
      var path := SimulatedPath(s.locations, now);
      s.(isActive := true,
         isSimulating := true,
         timer := true,
         simulation := Replaying(path, 0),
         simulationIndex := 0,
         startTime := if IsSet(s.startTime) then s.startTime else Some(now),
         locations := if |s.locations| > 0 then s.locations else [path[0]],
         subscription := if s.subscription.NoSubscription? then NoSubscription else Removed)
  }

  /**
   * `stopSimulation`: clear the replay interval, then (asynchronously; `resubscribed` is
   * its outcome) subscribe again with a callback that does not check `isActive`.
   * Returns the samples as they were; nothing is reset.
   */
  function StopSimulation(s: Session, resubscribed: bool): (r: (seq<LocationPoint>, Session))
    ensures r.0 == s.locations && r.1.locations == s.locations
    ensures r.1.distance == s.distance && r.1.elapsedTime == s.elapsedTime && r.1.calories == s.calories
    ensures !r.1.simulation.Replaying?
    ensures resubscribed ==> !r.1.isSimulating && r.1.subscription == Watching(false)
    ensures !resubscribed ==> r.1.isSimulating == s.isSimulating && r.1.subscription == s.subscription
    // nothing is reset: only the replay and subscription bookkeeping change
    ensures r.1 == s.(simulation := r.1.simulation, isSimulating := r.1.isSimulating,
                      simulationIndex := r.1.simulationIndex, subscription := r.1.subscription)
  {
    var cleared := if s.simulation.NoInterval? then s else s.(simulation := Cleared);
    (s.locations,
     if resubscribed then
       cleared.(isSimulating := false, simulation := NoInterval, simulationIndex := 0, subscription := Watching(false))
     else cleared)
  }

  /**
   * A tick of the replay interval: past the last-but-one point, or while not active, it
   * stops the simulation; otherwise it records the next synthetic point.
   */
  function SimulationTick(s: Session, dist: DistanceFn, resubscribed: bool): (r: Session)
    ensures !s.simulation.Replaying? ==> r == s
    // paused, or at the last-but-one point: the replay ends and nothing is recorded
    ensures s.simulation.Replaying? && (!s.isActive || s.simulation.index >= |s.simulation.path| - 1) ==>
      && r.locations == s.locations && r.distance == s.distance && r.elapsedTime == s.elapsedTime
      && !r.simulation.Replaying?
    // otherwise the point at the current index is recorded and the index advances
    ensures s.simulation.Replaying? && s.isActive && s.simulation.index < |s.simulation.path| - 1 ==>
      && r.locations == s.locations + [s.simulation.path[s.simulation.index]]
      && r.simulation == Replaying(s.simulation.path, s.simulation.index + 1)
      && r.simulationIndex == s.simulation.index + 1
      && r.distance >= s.distance && r.isActive
    // recording is exactly `updateStats` plus the index bookkeeping
    ensures s.simulation.Replaying? && s.isActive && s.simulation.index < |s.simulation.path| - 1 ==>
      r == UpdateStats(s, dist, s.simulation.path[s.simulation.index]).(simulation := r.simulation,
                                                                        simulationIndex := r.simulationIndex)
    // stopping touches only the replay and subscription bookkeeping
    ensures s.simulation.Replaying? && (!s.isActive || s.simulation.index >= |s.simulation.path| - 1) ==>
      && r == s.(simulation := r.simulation, isSimulating := r.isSimulating,
                 simulationIndex := r.simulationIndex, subscription := r.subscription)
      && (resubscribed ==> !r.isSimulating && r.subscription == Watching(false))
  {
    match s.simulation
    case Replaying(path, index) =>
      if !s.isActive || index >= |path| - 1 then StopSimulation(s, resubscribed).1
      else UpdateStats(s, dist, path[index]).(simulation := Replaying(path, index + 1), simulationIndex := index + 1)
    case _ => s
  }

  /**
   * `startSimulation` removes the live subscription but keeps its handle, so a later
   * resume does not subscribe again.
   */
  lemma ResumeAfterSimulationStaysRemoved(s: Session, now: int, r: int, watchStarted: bool)
    requires !s.isSimulating && s.subscription.Watching?
    ensures Resume(StartSimulation(s, now), r, watchStarted).subscription == Removed
  {
  }

  /** A pause during a replay ends the simulation at the next tick, and that tick records nothing. */
  lemma PauseEndsReplay(s: Session, p: int, dist: DistanceFn, resubscribed: bool)
    requires s.simulation.Replaying?
    ensures var r := SimulationTick(Pause(s, p), dist, resubscribed);
      r.locations == s.locations && r.distance == s.distance && !r.simulation.Replaying?
  {
  }

  /**
   * `stop` keeps `pausedTime`, and `startSimulation` then restarts the clock at `now`, so
   * every timer tick until the old paused time has passed shows a negative elapsed time.
   */
  lemma StopKeepsPauseForNextRun(s: Session, now: int, t: int)
    requires now != 0 && now <= t < now + s.pausedTime
    ensures var r := TimerTick(StartSimulation(Stop(s).1, now), t);
      r.elapsedTime < 0 && r.pausedTime == s.pausedTime
  {
    var u := StartSimulation(Stop(s).1, now);
    assert u.isActive && u.startTime == Some(now) && u.pausedTime == s.pausedTime;
    var r := TimerTick(u, t);
    assert r.elapsedTime * 1000 <= t - now - s.pausedTime < 0;
  }

  // ---------------------------------------------------------------------------
  // Events
  // ---------------------------------------------------------------------------

  datatype Event =
    | StartActivity(now: int, env: StartEnv)
    | TimerFired(now: int)
    | SampleArrived(fix: Fix)
    | PauseActivity(now: int)
    | ResumeActivity(now: int, watchStarted: bool)
    | StopActivity
    | StartSimulating(now: int)
    | SimulationFired(resubscribed: bool)
    | StopSimulating(resubscribed: bool)

  function Step(s: Session, dist: DistanceFn, e: Event): Session {
    match e
    case StartActivity(now, env) => (match Start(s, now, env) case Success(t) => t case Failure(_) => s)
    case TimerFired(now) => TimerTick(s, now)
    case SampleArrived(f) => LiveSample(s, dist, f)
    case PauseActivity(now) => Pause(s, now)
    case ResumeActivity(now, w) => Resume(s, now, w)
    case StopActivity => Stop(s).1
    case StartSimulating(now) => StartSimulation(s, now)
    case SimulationFired(w) => SimulationTick(s, dist, w)
    case StopSimulating(w) => StopSimulation(s, w).1
  }

  function Run(s: Session, dist: DistanceFn, events: seq<Event>): Session
    decreases |events|
  {
    if |events| == 0 then s else Run(Step(s, dist, events[0]), dist, events[1..])
  }

  // ---------------------------------------------------------------------------
  // Properties
  // ---------------------------------------------------------------------------

  lemma InitialValid()
    ensures Valid(Initial)
  {
  }

  /** Every event keeps the session invariant. */
  lemma StepPreservesValid(s: Session, dist: DistanceFn, e: Event)
    requires Valid(s)
    ensures Valid(Step(s, dist, e))
  {
    match e
    case SimulationFired(w) =>
      match s.simulation {
        case Replaying(path, index) =>
          if s.isActive && index < |path| - 1 {
            var t := UpdateStats(s, dist, path[index]);
            assert t.distance >= s.distance;
          }
        case _ =>
      }
    case _ =>
  }

  /** The invariant holds after any sequence of events from the initial state. */
  lemma {:induction false} RunPreservesValid(s: Session, dist: DistanceFn, events: seq<Event>)
    requires Valid(s)
    ensures Valid(Run(s, dist, events))
    decreases |events|
  {
    if |events| > 0 {
      StepPreservesValid(s, dist, events[0]);
      RunPreservesValid(Step(s, dist, events[0]), dist, events[1..]);
    }
  }

  /** Samples are append-only: only a stop or a successful start replaces them. */
  lemma SamplesAppendOnly(s: Session, dist: DistanceFn, e: Event)
    requires !e.StopActivity?
    requires e.StartActivity? ==> Start(s, e.now, e.env).Failure?
    ensures s.locations <= Step(s, dist, e).locations
  {
  }

  /** The distance never decreases, except when a stop clears it. */
  lemma DistanceNondecreasing(s: Session, dist: DistanceFn, e: Event)
    requires !e.StopActivity?
    ensures Step(s, dist, e).distance >= s.distance
  {
  }

  /** A pause at `p` followed by a resume at `r` adds exactly `r - p` to the paused time. */
  lemma PauseThenResume(s: Session, p: int, r: int, watchStarted: bool)
    requires p != 0
    ensures Resume(Pause(s, p), r, watchStarted).pausedTime == s.pausedTime + (r - p)
    ensures Resume(Pause(s, p), r, watchStarted).lastPauseTime.None?
    ensures Resume(Pause(s, p), r, watchStarted).isActive
  {
  }

  /** A resume with no pending pause leaves the paused time alone. */
  lemma ResumeWithoutPause(s: Session, now: int, watchStarted: bool)
    requires !IsSet(s.lastPauseTime)
    ensures Resume(s, now, watchStarted).pausedTime == s.pausedTime
  {
  }

  /**
   * Start at `t0`, pause at `p`, resume at `r`, tick at `t`: the elapsed seconds exclude
   * the paused interval.
   */
  lemma ElapsedExcludesPause(s: Session, env: StartEnv, t0: int, p: int, r: int, t: int, w: bool)
    requires Start(s, t0, env).Success? && t0 != 0 && p != 0
    ensures var u := TimerTick(Resume(Pause(Start(s, t0, env).value, p), r, w), t);
      u.elapsedTime == ((t - t0) - (r - p)) / 1000
  {
  }

  /** Starting and then stopping hands back exactly the initial fix. */
  lemma StartThenStop(s: Session, now: int, env: StartEnv)
    requires Start(s, now, env).Success?
    ensures Stop(Start(s, now, env).value).0 == [FromFix(FirstFix(env.fixAttempts, 0).value)]
    ensures IsCleared(Stop(Start(s, now, env).value).1)
  {
  }

  /**
   * Switching to simulated tracking and back preserves the samples, the distance and the
   * elapsed time.
   */
  lemma SimulationRoundTrip(s: Session, now: int, resubscribed: bool)
    requires !s.isSimulating && |s.locations| > 0
    ensures var t := StopSimulation(StartSimulation(s, now), resubscribed).1;
      t.locations == s.locations && t.distance == s.distance && t.elapsedTime == s.elapsedTime
  {
  }

  /** Apply `k` replay ticks. */
  function SimulationTicks(s: Session, dist: DistanceFn, k: nat, resubscribed: bool): Session
    decreases k
  {
    if k == 0 then s else SimulationTicks(SimulationTick(s, dist, resubscribed), dist, k - 1, resubscribed)
  }

  /**
   * While active, `k` replay ticks from index `i` record exactly the next `k` path points,
   * as long as they stay before the last one.
   */
  lemma {:induction false} ReplayRecords(s: Session, dist: DistanceFn, k: nat, resubscribed: bool)
    requires s.isActive && s.simulation.Replaying?
    requires s.simulation.index + k <= |s.simulation.path| - 1
    ensures var t := SimulationTicks(s, dist, k, resubscribed);
      && t.simulation == Replaying(s.simulation.path, s.simulation.index + k)
      && t.locations == s.locations + s.simulation.path[s.simulation.index..s.simulation.index + k]
      && t.isActive
    decreases k
  {
    var path, i := s.simulation.path, s.simulation.index;
    if k > 0 {
      var s1 := SimulationTick(s, dist, resubscribed);
      assert s1.locations == s.locations + [path[i]];
      ReplayRecords(s1, dist, k - 1, resubscribed);
      assert path[i..i + k] == [path[i]] + path[i + 1..i + k];
    }
  }

  /**
   * The replay records at most `|path| - 1` points: the tick after the last-but-one point
   * ends the simulation and records nothing.
   */
  lemma ReplayStopsBeforeLast(s: Session, dist: DistanceFn, resubscribed: bool)
    requires s.isActive && s.simulation.Replaying? && s.simulation.index == 0 && |s.simulation.path| >= 1
    ensures var t := SimulationTicks(s, dist, |s.simulation.path| - 1, resubscribed);
      t.locations == s.locations + s.simulation.path[..|s.simulation.path| - 1]
    ensures var t := SimulationTicks(s, dist, |s.simulation.path|, resubscribed);
      t.locations == s.locations + s.simulation.path[..|s.simulation.path| - 1] && !t.simulation.Replaying?
  {
    var n := |s.simulation.path|;
    ReplayRecords(s, dist, n - 1, resubscribed);
    var t := SimulationTicks(s, dist, n - 1, resubscribed);
    assert SimulationTicks(s, dist, n, resubscribed) == SimulationTicks(t, dist, 1, resubscribed) by {
      TicksSplit(s, dist, n - 1, resubscribed);
    }
  }

  lemma {:induction false} TicksSplit(s: Session, dist: DistanceFn, k: nat, resubscribed: bool)
    ensures SimulationTicks(s, dist, k + 1, resubscribed)
         == SimulationTicks(SimulationTicks(s, dist, k, resubscribed), dist, 1, resubscribed)
    decreases k
  {
    if k > 0 {
      TicksSplit(SimulationTick(s, dist, resubscribed), dist, k - 1, resubscribed);
    }
  }

  /** A replay started by `startSimulation` records at most 65 of its 66 points. */
  lemma SimulationRecordsAtMost65(s: Session, dist: DistanceFn, now: int, resubscribed: bool)
    requires !s.isSimulating
    ensures var t := StartSimulation(s, now);
      && |t.simulation.path| == 66
      && SimulationTicks(t, dist, 66, resubscribed).locations == t.locations + t.simulation.path[..65]
  {
    var t := StartSimulation(s, now);
    ReplayStopsBeforeLast(t, dist, resubscribed);
  }
}

=== FILE: wrappers.dfy ===
/** Optional values and results with an error, as used throughout the model. */
module Wrappers {

  /** A value that may be missing (`null` / `undefined` in the application). */
  datatype Option<+T> = None | Some(value: T)

  /** The outcome of an operation that may throw instead of returning. */
  datatype Result<+R, +E> = Success(value: R) | Failure(error: E)
}
